=== FILE: README.md ===
# PodListen feed sync and podcast helper, modelled in Dafny

This project models the sequential decision logic of PodListen's podcast
refresh. It covers two Java classes.

- `SyncWorker` is one refresh of one subscription. It fetches and parses the
  feed, zeroes the podcast's timestamp while writing the feed's data, and
  walks the feed items in order. For each item it picks an audio source,
  deduplicates by id, probes the size when needed and inserts the episode as
  NEW or GONE. It then commits the sync timestamp. Every exception is
  recorded on the podcast row and signalled as an IO, DB or parse error.
- `PodcastHelper` holds the identifier function `generateId`, the
  subscription logic `addSubscription`, and the episode cleanup decision in
  `markEpisodeGone` / `deleteEpisode`. It also holds the list-image width
  clamp.

The content provider is a pure `Store`: two tables, `podcasts` and
`episodes`, each a `map<int, Row>` from id to a row of column values. A
provider call is a `Write` (update, insert or delete) applied to the store.
The worker's `State` also logs every call that returned, so the order of
writes can be stated.

Everything the two classes ask of the outside world is an input:

- the network fetch and the parser;
- the clock;
- the size probe;
- faults thrown by the provider.

A run is a total function `SyncWorker.Run` from the store and these answers
to the new store and the signalled outcome.

Three behaviours of the code as written are stated exactly rather than
smoothed over.

- The hash is Java's 32-bit `String.hashCode` over UTF-16 code units. One URL
  (`http://dkhejvb`) therefore gets id 0, which is also the value
  `addSubscription` returns for "already subscribed".
- The age test of the mark-new window is a 64-bit wrapping subtraction.
- `^\w+://.*` and `\Aaudio/.*\Z` are `matches()` tests in which `.` refuses
  line terminators.

Modules, one per file:

- `JavaLang` (`java_lang.dfy`): 32/64-bit wrap-around, UTF-16 encoding, root-locale `toLowerCase`, `endsWith`, the regex classes used, exceptions as family + simple name + message.
- `Ids` (`ids.dfy`): `String.hashCode` (recursive definition and the JDK loop) and `generateId`.
- `Store` (`store.dfy`): rows, tables, provider writes and their row counts.
- `Episodes` (`episodes.dfy`): feed items, enclosure selection, `urlPointsToAudio`, `correctDate`, short-description truncation.
- `PodcastHelper` (`podcast_helper.dfy`): URL normalisation, `addSubscription`, `markEpisodeGone`, `deleteEpisode`, `getListImageWidth`.
- `SyncWorker` (`sync_worker.dfy`): `tryInsertEpisode`, the mark-new window, the item fold, `updateFeed`, `storeFeedError`, the final commit, `run`.
- `SyncProperties` (`sync_properties.dfy`): whole-run properties covering failure recording, success commit and write order, re-sync, and the cleanup that follows a sync.

## Model

| member | source | states |
|---|---|---|
| Ids.HashCode | app/src/main/java/com/einmalfel/podlisten/PodcastHelper.java:54-56 | the hash is a signed 32-bit value equal to the unbounded polynomial sum of UTF-16 units times powers of 31, narrowed to 32 bits |
| Ids.PolynomialIsDocumentedSum | app/src/main/java/com/einmalfel/podlisten/PodcastHelper.java:54-56 | the Horner evaluation `31*h + u` of the code units equals the documented sum of u[i]*31^(n-1-i) |
| Ids.ComputeHashCode | app/src/main/java/com/einmalfel/podlisten/PodcastHelper.java:54-56 | the left-to-right `h = 31*h + c` loop with `int` overflow computes the polynomial hash narrowed to 32 bits |
| Ids.GenerateId | app/src/main/java/com/einmalfel/podlisten/PodcastHelper.java:54-56 | the id always lies in [0, 2^32) |
| Ids.GenerateIdClosedForm | app/src/main/java/com/einmalfel/podlisten/PodcastHelper.java:54-56 | the id is (polynomial hash + 2^31) mod 2^32 |
| Ids.GenerateIdCollidesIffHashCollides | app/src/main/java/com/einmalfel/podlisten/PodcastHelper.java:54-56 | two URLs get the same id exactly when their Java hash codes are equal |
| Ids.GenerateIdOfEmpty | app/src/main/java/com/einmalfel/podlisten/PodcastHelper.java:54-56 | the empty string gets id 2^31 |
| Ids.GenerateIdOfSingleBmpChar | app/src/main/java/com/einmalfel/podlisten/PodcastHelper.java:54-56 | a one-character BMP string gets its character code plus 2^31 |
| Ids.ZeroIdentifierExists | app/src/main/java/com/einmalfel/podlisten/PodcastHelper.java:54-56 | "http://dkhejvb" gets id 0 |
| Episodes.UrlPointsToAudio | app/src/main/java/com/einmalfel/podlisten/SyncWorker.java:131-140 | true exactly when the lower-cased link ends with one of .mp3 .ogg .flac .aac .wav .m4a .oga |
| Episodes.IsAudioType | app/src/main/java/com/einmalfel/podlisten/SyncWorker.java:35 | `\Aaudio/.*\Z` under `matches()`: the type starts with "audio/" and the rest holds no line terminator |
| Episodes.Qualifies | app/src/main/java/com/einmalfel/podlisten/SyncWorker.java:157-158 | a non-empty type must match the audio pattern; a missing or empty type defers to the URL test |
| Episodes.UrlPointsToAudioIgnoresCase | app/src/main/java/com/einmalfel/podlisten/SyncWorker.java:131-132 | a link and its lower-cased form get the same answer |
| Episodes.UpperCaseExtensionPointsToAudio | app/src/main/java/com/einmalfel/podlisten/SyncWorker.java:132-136 | any link ending in ".MP3" points to audio |
| Episodes.TrailingQueryDefeatsAudioTest | app/src/main/java/com/einmalfel/podlisten/SyncWorker.java:134-139 | a link whose last character is none of the extensions' last characters (e.g. a trailing query string) does not point to audio |
| Episodes.ScanEnclosures | app/src/main/java/com/einmalfel/podlisten/SyncWorker.java:154-162 | the loop keeps its accumulator when no later enclosure qualifies, and otherwise ends with the last qualifying enclosure's link and length |
| Episodes.SelectEnclosure | app/src/main/java/com/einmalfel/podlisten/SyncWorker.java:151-162 | none is chosen exactly when no enclosure qualifies; otherwise the last qualifying enclosure wins, with its length |
| Episodes.ResolveAudio | app/src/main/java/com/einmalfel/podlisten/SyncWorker.java:151-171 | a qualifying enclosure, when there is one, is the source; otherwise the source is the item link, which then points to audio, with no known size |
| Episodes.ResolveAudioNoneIff | app/src/main/java/com/einmalfel/podlisten/SyncWorker.java:151-171 | an item is skipped exactly when no enclosure qualifies and its link is missing or does not point to audio |
| Episodes.NonAudioTypeNeverQualifies | app/src/main/java/com/einmalfel/podlisten/SyncWorker.java:155-158 | an enclosure with a non-empty, non-audio type never qualifies, whatever its URL |
| Episodes.AudioBeatsHtmlEnclosure | app/src/main/java/com/einmalfel/podlisten/SyncWorker.java:154-162 | an audio/mpeg enclosure beside a text/html one is chosen in either order |
| Episodes.CorrectDate | app/src/main/java/com/einmalfel/podlisten/SyncWorker.java:127-129 | the date is kept iff present and within [epoch, now] (strict comparisons, so boundaries pass), otherwise now is used |
| Episodes.CorrectDateBoundedAndIdempotent | app/src/main/java/com/einmalfel/podlisten/SyncWorker.java:127-129 | the corrected date is never after now, and correcting it again changes nothing |
| Episodes.ShortDescription | app/src/main/java/com/einmalfel/podlisten/SyncWorker.java:276-280 | the result is the prefix of length min(length, limit), equal to the input iff it fits |
| Episodes.ShortDescriptionIdempotent | app/src/main/java/com/einmalfel/podlisten/SyncWorker.java:276-280 | truncating twice is truncating once |
| PodcastHelper.WordPrefixLength | app/src/main/java/com/einmalfel/podlisten/PodcastHelper.java:175 | the result is the length of the maximal leading run of `\w` characters |
| PodcastHelper.HasScheme | app/src/main/java/com/einmalfel/podlisten/PodcastHelper.java:175 | the one-pass scan (word run, then "://" and a line-terminator-free rest) holds iff some split of `^\w+://.*` exists |
| PodcastHelper.OnlyWordRunSplits | app/src/main/java/com/einmalfel/podlisten/PodcastHelper.java:175 | "://" can only follow the maximal leading word run, so the pattern never has to backtrack |
| PodcastHelper.SchemeAtIsWordRun | app/src/main/java/com/einmalfel/podlisten/PodcastHelper.java:175 | any such split puts "://" right after the maximal word run |
| PodcastHelper.HasSchemeHasNoLineTerminator | app/src/main/java/com/einmalfel/podlisten/PodcastHelper.java:175 | a string matching the scheme pattern holds no line terminator |
| PodcastHelper.NormalizeUrl | app/src/main/java/com/einmalfel/podlisten/PodcastHelper.java:175-178 | "http://" is prepended iff the lower-cased URL does not match the scheme pattern; otherwise the URL is unchanged |
| PodcastHelper.LowerCaseKeepsSchemeAt | app/src/main/java/com/einmalfel/podlisten/PodcastHelper.java:175 | lower-casing preserves a scheme match at the same position |
| PodcastHelper.NormalizeKeepsSchemedUrl | app/src/main/java/com/einmalfel/podlisten/PodcastHelper.java:175-178 | a URL with a scheme in any case is left untouched |
| PodcastHelper.HttpPrefixedUrlIsKept | app/src/main/java/com/einmalfel/podlisten/PodcastHelper.java:175-178 | "http://" + u is left untouched when u holds no line terminator |
| PodcastHelper.NormalizeUrlIdempotent | app/src/main/java/com/einmalfel/podlisten/PodcastHelper.java:175-178 | normalising twice equals normalising once, for URLs without line terminators |
| PodcastHelper.NormalizeUrlNotIdempotentWithLineTerminator | app/src/main/java/com/einmalfel/podlisten/PodcastHelper.java:175-178 | a URL with a line terminator gets "http://" prepended on every call |
| PodcastHelper.AddSubscription | app/src/main/java/com/einmalfel/podlisten/PodcastHelper.java:173-196 | an existing id gives 0 and no change; otherwise exactly the row {PFURL, PRMODE, ID} is inserted and the id returned, or, if the insert fails, SubscriptionNotInsertedException with no change |
| PodcastHelper.AddSubscriptionTwice | app/src/main/java/com/einmalfel/podlisten/PodcastHelper.java:179-184 | subscribing again to the same URL returns 0 and changes nothing |
| PodcastHelper.BareUrlSubscribesAsHttp | app/src/main/java/com/einmalfel/podlisten/PodcastHelper.java:175-184 | a scheme-less URL and the same URL with "http://" are the same subscription |
| PodcastHelper.FreshSubscriptionCanReturnZero | app/src/main/java/com/einmalfel/podlisten/PodcastHelper.java:179-194 | a fresh subscription is inserted yet answered with 0, the "already subscribed" value |
| PodcastHelper.Subscribe | app/src/main/java/com/einmalfel/podlisten/PodcastHelper.java:170-195 | same store change as addSubscription; "already subscribed" is reported iff the id exists, and a new subscription's id is one just inserted |
| PodcastHelper.SubscribeRefinesAddSubscription | app/src/main/java/com/einmalfel/podlisten/PodcastHelper.java:179-195 | the two answers agree except that addSubscription's 0 covers both "already subscribed" and new id 0 |
| PodcastHelper.SubscribeKeepsZeroIdApart | app/src/main/java/com/einmalfel/podlisten/PodcastHelper.java:183-194 | the corrected answer reports "http://dkhejvb" as a new subscription with id 0 |
| PodcastHelper.QueryEpisodeWithPodcast | app/src/main/java/com/einmalfel/podlisten/PodcastHelper.java:103-109 | the join finds a row iff the episode exists, is not GONE and its podcast exists, and then returns that episode and podcast |
| PodcastHelper.DeleteEpisode | app/src/main/java/com/einmalfel/podlisten/PodcastHelper.java:158-161 | only the episode's row is removed; the result is whether one row was deleted |
| PodcastHelper.MarkEpisodeGone | app/src/main/java/com/einmalfel/podlisten/PodcastHelper.java:100-137 | absent or GONE: false, no change; ETSTAMP < PTSTAMP: the row is deleted; otherwise only ESTATE=GONE, EDFIN=0, EDID=0 are written; podcasts never change |
| PodcastHelper.MarkEpisodeGoneTwice | app/src/main/java/com/einmalfel/podlisten/PodcastHelper.java:103-131 | a second call finds nothing to do and returns false |
| PodcastHelper.MarkEpisodeGoneTouchesOnlyItsRow | app/src/main/java/com/einmalfel/podlisten/PodcastHelper.java:122-131 | every other episode row is unchanged |
| PodcastHelper.ListImageWidth | app/src/main/java/com/einmalfel/podlisten/PodcastHelper.java:214-223 | below min gives min, within [min, max] gives the width, above max (and at least min) gives max, and with min <= max the result lies in [min, max] |
| PodcastHelper.ListImageWidthMonotoneIdempotent | app/src/main/java/com/einmalfel/podlisten/PodcastHelper.java:214-223 | the clamp is monotone and idempotent |
| SyncWorker.ProbedSize | app/src/main/java/com/einmalfel/podlisten/SyncWorker.java:187-197 | a size of 10 KiB or more is kept unprobed; otherwise the probe's length, a skip on malformed URL, or the known size on IOException |
| SyncWorker.EpisodeContent | app/src/main/java/com/einmalfel/podlisten/SyncWorker.java:146-216 | a new episode is named by the item title or the no-title placeholder; it stores the audio URL, the item link or null, and the size; it has a null error and zero played, length, attempts, download timestamp, download-finished and download id; the description is the simplified HTML and the short description the first `shortDescrLength` characters of its plain text, both present exactly when the item has a description; it has no id, subscription, date, timestamp or state |
| SyncWorker.EpisodeRow | app/src/main/java/com/einmalfel/podlisten/SyncWorker.java:199-222 | the inserted row carries the id, subscription, audio URL, size, corrected date, ETSTAMP = item timestamp, ESTATE NEW iff markNew, and descriptions iff the item has one |
| SyncWorker.EpisodeRowKeepsContent | app/src/main/java/com/einmalfel/podlisten/SyncWorker.java:199-216 | every column of the episode content is in the inserted row with the same value |
| SyncWorker.InsertNewEpisode | app/src/main/java/com/einmalfel/podlisten/SyncWorker.java:187-228 | a malformed-URL probe skips the item with no write; an insert fault is swallowed as a skip when it is a RemoteException and escapes otherwise; with neither, the insert call is made and reported as an insert, adding exactly the episode row unless the provider refuses it (returns null), which adds none |
| SyncWorker.TryInsertEpisode | app/src/main/java/com/einmalfel/podlisten/SyncWorker.java:143-228 | no audio: skipped with no write; a timestamp-update fault is a skip when it is a RemoteException and escapes otherwise, with no change; else ETSTAMP is updated first and a stored id ends there with false |
| SyncWorker.DuplicateOnlyTouches | app/src/main/java/com/einmalfel/podlisten/SyncWorker.java:176-185 | an episode already stored is never inserted: at most its ETSTAMP changes and no key is added |
| SyncWorker.ProbeOnlyBelowThreshold | app/src/main/java/com/einmalfel/podlisten/SyncWorker.java:187 | with a known size of 10 KiB or more the probe's answer cannot change the result |
| SyncWorker.NewEpisodeSize | app/src/main/java/com/einmalfel/podlisten/SyncWorker.java:187-227 | a new episode is reported inserted iff no malformed-URL skip; a row the provider keeps has the probed size or the known size as the source does, and a refused insert leaves no row |
| SyncWorker.MarkNewNeedsBudget | app/src/main/java/com/einmalfel/podlisten/SyncWorker.java:74 | once the budget is used up nothing is marked new |
| SyncWorker.MarkNew | app/src/main/java/com/einmalfel/podlisten/SyncWorker.java:74-78 | marking needs unused budget, and without a publication date the budget alone decides |
| SyncWorker.FutureDatePassesAgeTest | app/src/main/java/com/einmalfel/podlisten/SyncWorker.java:75-78 | a future publication date passes the age test (the raw date is used) |
| SyncWorker.MarkNewAgeWithoutOverflow | app/src/main/java/com/einmalfel/podlisten/SyncWorker.java:74-78 | without overflow, markNew is `newSoFar < count && syncTs - pubDate < maxAge` |
| SyncWorker.AncientDateWrapsToNew | app/src/main/java/com/einmalfel/podlisten/SyncWorker.java:77 | a date near Long.MIN_VALUE wraps the long subtraction and counts as young |
| JavaLang.SubInt64Wraps | app/src/main/java/com/einmalfel/podlisten/SyncWorker.java:77 | the `long` subtraction of the timestamps is the exact difference narrowed to 64 bits |
| SyncWorker.TryInsertIsEpisodePass | app/src/main/java/com/einmalfel/podlisten/SyncWorker.java:79-81 | one item leaves podcasts and existing states alone, and adds one NEW id exactly when it inserted with markNew and the provider kept the row |
| SyncWorker.SyncItems | app/src/main/java/com/einmalfel/podlisten/SyncWorker.java:72-82 | the counter moves only on inserts reported with markNew, stays within the budget and the item count, is at least the number of NEW rows added, and equals it when no insert is refused |
| SyncWorker.SyncItemsAllKnown | app/src/main/java/com/einmalfel/podlisten/SyncWorker.java:72-82 | items whose audio ids are all stored add no row, change no column of any row but ETSTAMP, and count nothing |
| SyncWorker.SyncItemsPassesWithoutEscapes | app/src/main/java/com/einmalfel/podlisten/SyncWorker.java:72-82 | when every per-item fault is a RemoteException the loop reaches the end of the item list |
| SyncWorker.AttemptThrowsItsFault | app/src/main/java/com/einmalfel/podlisten/SyncWorker.java:178-184 | an item's attempt throws only its own timestamp-update or insert fault, and never a RemoteException |
| SyncWorker.SyncItemsEscapeComesFromItem | app/src/main/java/com/einmalfel/podlisten/SyncWorker.java:72-82 | an exception leaves the loop only as the timestamp-update or insert fault of some item reached after every earlier item went through, and is never a RemoteException |
| SyncWorker.FreshItemIsInserted | app/src/main/java/com/einmalfel/podlisten/SyncWorker.java:174-243 | an item with audio, an unstored id and no fault, refusal or malformed URL reports true and adds a row under its id, NEW iff markNew, changing no other row and no podcast |
| SyncWorker.SyncItemsSplit | app/src/main/java/com/einmalfel/podlisten/SyncWorker.java:72-82 | the loop over the items is the loop over a prefix, resumed over the rest with that prefix's count unless it threw |
| SyncWorker.SyncItemsMarksInsert | app/src/main/java/com/einmalfel/podlisten/SyncWorker.java:72-82 | an item reached with `n` items counted before it, and inserted, ends the pass NEW exactly when markNew(n, its pubDate) holds |
| SyncWorker.InsertOutsideWindowIsGone | app/src/main/java/com/einmalfel/podlisten/SyncWorker.java:74-78 | an item inserted after the budget is spent, or whose wrapped age is at least the maximum, ends the pass GONE |
| SyncWorker.MarkPlan | app/src/main/java/com/einmalfel/podlisten/SyncWorker.java:74-81 | when every item is inserted, the marks number at most the budget left, and only items without a date or younger than the maximum age are marked |
| SyncWorker.MarkPlanRule | app/src/main/java/com/einmalfel/podlisten/SyncWorker.java:74-81 | item `i` is marked exactly when markNew holds with the marks of the items before it as the count |
| SyncWorker.MarkPlanWithoutDates | app/src/main/java/com/einmalfel/podlisten/SyncWorker.java:74-78 | without publication dates exactly the first items up to the budget left are marked |
| SyncWorker.MarkPlanWorkedExample | app/src/main/java/com/einmalfel/podlisten/SyncWorker.java:74-81 | budget 2, maximum age 7 days, ages 1, 2, 10, 3 and 0 days: the first two items are marked, the third is too old, the last two find the budget spent |
| SyncWorker.SyncItemsFollowsMarkPlan | app/src/main/java/com/einmalfel/podlisten/SyncWorker.java:72-82 | distinct unstored ids with nothing hindering their inserts: the pass runs to the end, counts the plan's marks, and every item's row is NEW iff marked |
| SyncWorker.SyncItemsFillsBudget | app/src/main/java/com/einmalfel/podlisten/SyncWorker.java:72-82 | such items without publication dates: the count and the number of NEW rows added are both min(budget left, item count) |
| SyncWorker.SyncItemsWorkedExample | app/src/main/java/com/einmalfel/podlisten/SyncWorker.java:72-82 | the worked example through the loop: the pass counts 2 |
| SyncWorker.SyncItemsWorkedExampleRows | app/src/main/java/com/einmalfel/podlisten/SyncWorker.java:72-82 | the worked example through the loop: the first two rows are NEW and the other three GONE |
| SyncWorker.TryInsertStamps | app/src/main/java/com/einmalfel/podlisten/SyncWorker.java:174-221 | every row one item adds or changes carries the item's timestamp |
| SyncWorker.Touch | app/src/main/java/com/einmalfel/podlisten/SyncWorker.java:363-368 | the timestamp update writes only ETSTAMP of the one episode row |
| SyncWorker.TouchEffect | app/src/main/java/com/einmalfel/podlisten/SyncWorker.java:363-368 | it reports a hit iff the episode is stored, and then only that row's ETSTAMP changes; podcasts are untouched |
| SyncWorker.SyncItemsStamps | app/src/main/java/com/einmalfel/podlisten/SyncWorker.java:72-82 | every row the loop adds or changes carries a timestamp at least the earliest item timestamp |
| SyncWorker.Classify | app/src/main/java/com/einmalfel/podlisten/SyncWorker.java:97-109 | RemoteException iff DB error; DataFormat or XmlPullParser iff parse error; IOException or anything else iff IO error |
| SyncWorker.StoreFeedError | app/src/main/java/com/einmalfel/podlisten/SyncWorker.java:112-124 | only the podcast row gets PERROR and LAST_REFRESH_FAILED; a failing write changes nothing |
| SyncWorker.FeedValues | app/src/main/java/com/einmalfel/podlisten/SyncWorker.java:247-259 | the feed update writes PFURL = the subscription link, PURL = the feed link or null, PNAME = the feed title or null, PTSTAMP = 0, and, exactly when the feed has a description, PDESCR = its simplified HTML and PSDESCR = the first `shortDescrLength` characters of that as plain text; it writes neither state, error nor refresh mode |
| SyncWorker.FeedValuesColumns | app/src/main/java/com/einmalfel/podlisten/SyncWorker.java:247-259 | the feed update writes exactly PFURL, PURL, PNAME and PTSTAMP, plus PDESCR and PSDESCR when there is a description |
| SyncWorker.UpdateFeed | app/src/main/java/com/einmalfel/podlisten/SyncWorker.java:247-273 | the update must hit exactly one row, otherwise RemoteException "Failed to update database with new podcast data" |
| SyncWorker.Commit | app/src/main/java/com/einmalfel/podlisten/SyncWorker.java:84-95 | the commit must hit exactly one row, otherwise RemoteException "Failed to update feed timestamp" |
| SyncWorker.Run | app/src/main/java/com/einmalfel/podlisten/SyncWorker.java:61-110 | a fetch failure is classified and leaves episodes alone; a success reports the feed title and at most one new episode per item; a failure names the link; no podcast is added or removed |
| SyncProperties.RunFetchFailure | app/src/main/java/com/einmalfel/podlisten/SyncWorker.java:61-124 | a fetch or parse failure writes only the error: episodes and PTSTAMP untouched, outcome by exception class |
| SyncProperties.RunSuccessStages | app/src/main/java/com/einmalfel/podlisten/SyncWorker.java:61-96 | a success went through feed update, item loop and commit, and reports the feed title with the loop's count |
| SyncProperties.RunSucceedsWhenStagesPass | app/src/main/java/com/einmalfel/podlisten/SyncWorker.java:61-96 | conversely, with the podcast row present and no fault at the feed update or the commit, the run succeeds iff the item loop runs to its end, then with the feed title and the loop's count; it does run to its end when every item fault is a RemoteException |
| SyncProperties.RunSuccessCommits | app/src/main/java/com/einmalfel/podlisten/SyncWorker.java:84-90 | after success the podcast row has the feed's data, SEEN_ONCE, refresh mode ALL and PTSTAMP = syncTs; no other podcast changes |
| SyncProperties.RunSuccessWriteOrder | app/src/main/java/com/einmalfel/podlisten/SyncWorker.java:64-89 | the first call zeroes PTSTAMP, the last commits syncTs, and only episode calls come between |
| SyncProperties.RunSuccessCount | app/src/main/java/com/einmalfel/podlisten/SyncWorker.java:72-90 | the reported count is at least the number of NEW rows added and equal to it when no insert is refused, within the budget and the item count; no episode disappears |
| SyncProperties.RunFailureStage | app/src/main/java/com/einmalfel/podlisten/SyncWorker.java:61-110 | a failure stopped at some state where the podcast row is unchanged or has only the feed update |
| SyncProperties.RunFailure | app/src/main/java/com/einmalfel/podlisten/SyncWorker.java:97-124 | a failure is classified by its exception, whose error is the last write, and PTSTAMP is left old or zero, never committed |
| SyncProperties.RunFailureNamesException | app/src/main/java/com/einmalfel/podlisten/SyncWorker.java:61-109 | a feed-update fault is signalled by its class; a missed podcast row is a DB error; an item fault escaping the loop is the first non-Remote touch or insert fault, signalled by its class as a parse or I/O error; a commit fault is signalled by its class |
| SyncProperties.RunStoppedBeforeItemsSparesEpisodes | app/src/main/java/com/einmalfel/podlisten/SyncWorker.java:61-108 | a run whose fetch fails, whose feed update throws or whose podcast row is missing fails before the item loop: it makes no episode call and leaves every episode as it was |
| SyncProperties.FailRecords | app/src/main/java/com/einmalfel/podlisten/SyncWorker.java:112-124 | recording an exception adds only the error write after the feed update |
| SyncProperties.ResyncInsertsNothing | app/src/main/java/com/einmalfel/podlisten/SyncWorker.java:176-185 | re-syncing a feed whose audio URLs are all stored adds no episode and changes no column but ETSTAMP, and a success reports 0 |
| SyncProperties.CleanupAfterSync | app/src/main/java/com/einmalfel/podlisten/SyncWorker.java:68-92 | with a monotone clock, markEpisodeGone right after a sync deletes a podcast's episode iff it was last seen before the sync, so nothing the sync saw is deleted |

## Left out

- The network fetch, `EarlParser.parseOrThrow` and `new URL(link)` are one input, a parsed feed or the exception thrown. The parser's 1000-item cap is assumed of that input (`SyncWorker.EnvFits`).
- The content-length probe is an input: a length, a malformed URL or another IOException. Runtime exceptions inside it are not modelled.
- Wall-clock `new Date()` readings are inputs: the sync timestamp and one timestamp per item.
- `PODCAST_EPOCH` is a parameter, because it is built from the local-time calendar.
- `simplifyHTML` and `Html.fromHtml(...).toString()` are opaque `string -> string` parameters. They use Android HTML conversion, unbescape escaping and backtracking regexes.
- Only `getShortDescription`'s truncation is modelled.
- Image downloads (`ImageManager`), `BackgroundOperations.cleanupEpisodes`, file deletion, `DownloadManager.remove`, logging, Toast, Snackbar and dialogs are left out as side effects and UI.
- SyncWorker.Run: does not model an unchecked exception from `ImageManager` (SyncWorker.java:233-240, 261-268) or from `cleanupEpisodes` (SyncWorker.java:92). Both run inside the same try block as the sync, so such an exception would end the run through the catch-all as an IOError; from `cleanupEpisodes` that happens after success was already signalled. The model assumes these calls return normally.
- `getInstance`, the worker pool and any concurrency are left out. The model is one sequential run.
- `humanReadableByteCount` is left out because it uses floating point and `String.format`.
- `clearNewEpisodes` is left out because it is a cursor loop over `markEpisodeGone`.
- `trySubscribe` is left out because it only shows UI around `addSubscription`.
- `Provider` is not part of this model. Updates merge columns into an existing row and count 1 or 0, and deletes remove one. A podcast insert adds an absent id or fails. An episode insert adds its row unless the provider refuses it and returns null (`ItemEnv.insertRefused`); `tryInsertEpisode` does not look at that answer, so a refused insert is still counted. The episode-join-podcast query is taken as an inner join on EPID. Column defaults of the schema are unknown, so a missing long column reads as 0.
- Non-Remote runtime exceptions thrown by provider calls inside `storeFeedError` are not modelled; only its RemoteException is.
- SyncWorker.ItemEnv: the per-item touch and insert faults may be of any exception family, which over-approximates the source. `tryInsertEpisode` declares no checked exception and catches RemoteException itself (SyncWorker.java:143-145, 177-184, 221-227), so only unchecked exceptions can escape an item, and the catch-all signals those as I/O errors (SyncWorker.java:106-108). The model states that an escaping item fault is a parse or I/O error; the source narrows that to an I/O error.
- `Provider.SHORT_DESCR_LENGTH`, `RefreshMode.ALL.ordinal()` and the "no title" string are parameters of `SyncWorker.Config`.
- `String.toLowerCase` is modelled for 'A'..'Z' and KELVIN SIGN only, with a root locale assumed; every other character is kept as it is. The real method also turns U+0130 into "i" followed by U+0307, which the model does not do. The modelled tests reach the same verdict either way: U+0307 is not a `\w` character, so it ends the leading word run just as U+0130 does, and it is not the last character of any audio extension. The source calls `toLowerCase()` with the default locale, so the root locale is an assumption: under a Turkish or Azerbaijani locale 'I' lower-cases to U+0131, which is not a `\w` character either, so "ITPC://host/feed" would get "http://" prepended; the audio extensions hold no 'i', so their test is unaffected.
- Lone surrogates cannot occur in a Dafny `string`, so strings with them are out of range.
- Episodes.ShortDescription: counts Unicode scalar values, where Java's `substring` counts UTF-16 units; the two agree for text inside the Basic Multilingual Plane.
- PodcastHelper.NormalizeUrlIdempotent: idempotence holds only for URLs without line terminators, because `.` in `^\w+://.*` does not match them; PodcastHelper.NormalizeUrlNotIdempotentWithLineTerminator states the other case.

## Findings

| source | as written | input that shows it | evidently intended | confidence | as-written member | corrected member |
|---|---|---|---|---|---|---|
| app/src/main/java/com/einmalfel/podlisten/PodcastHelper.java:179-194 | a new subscription returns its id, which may be 0, and 0 also means "already subscribed" | `addSubscription("http://dkhejvb", mode)` on a store without that podcast: the row is inserted and 0 is returned | "already subscribed" distinguishable from every new subscription's id | medium, not executed | PodcastHelper.FreshSubscriptionCanReturnZero | PodcastHelper.Subscribe |

=== FILE: episodes.dfy ===
/**
 * The episode extractor of `SyncWorker`: the shape of a parsed feed, the
 * choice of an item's audio source, publication-date correction and the
 * short description. All of it is pure.
 */
module Episodes {
  import opened JavaLang

  /** A media reference attached to a feed item. `length` is the nullable `Integer` the parser reports. */
  datatype Enclosure = Enclosure(link: string, mimeType: Option<string>, length: Option<int>)

  /** One parsed feed item. Dates are epoch milliseconds. */
  datatype Item = Item(
    title: Option<string>,
    link: Option<string>,
    description: Option<string>,
    imageLink: Option<string>,
    pubDate: Option<Int64>,
    enclosures: seq<Enclosure>)

  /** A parsed feed. */
  datatype Feed = Feed(
    title: Option<string>,
    link: Option<string>,
    description: Option<string>,
    imageLink: Option<string>,
    items: seq<Item>)

  /** The chosen audio URL and the size known for it (null when the feed gave none). */
  datatype AudioSource = AudioSource(link: string, size: Option<int>)

  /** The file extensions taken to mean audio, in the order they are tried. */
  const AUDIO_EXTENSIONS: seq<string> := [".mp3", ".ogg", ".flac", ".aac", ".wav", ".m4a", ".oga"]

  /** Some extension from `AUDIO_EXTENSIONS[from..]` ends `lower`. */
  function EndsWithExtensionFrom(lower: string, from: nat): (r: bool)
    requires from <= |AUDIO_EXTENSIONS|
    ensures r <==> exists i :: from <= i < |AUDIO_EXTENSIONS| && EndsWith(lower, AUDIO_EXTENSIONS[i])
    decreases |AUDIO_EXTENSIONS| - from
  {
    if from == |AUDIO_EXTENSIONS| then false
    else EndsWith(lower, AUDIO_EXTENSIONS[from]) || EndsWithExtensionFrom(lower, from + 1)
  }

  /** `urlPointsToAudio`: the lower-cased link ends with one of the audio extensions. */
  function UrlPointsToAudio(link: string): (r: bool)
    ensures r <==> exists i :: 0 <= i < |AUDIO_EXTENSIONS| && EndsWith(ToLowerCase(link), AUDIO_EXTENSIONS[i])
  {
    EndsWithExtensionFrom(ToLowerCase(link), 0)
  }

  /** The extension test ignores case: a link and its lower-cased form get the same answer. */
  lemma UrlPointsToAudioIgnoresCase(link: string)
    ensures UrlPointsToAudio(ToLowerCase(link)) == UrlPointsToAudio(link)
  {
    ToLowerCaseIdempotent(link);
  }

  /** Any link ending in ".MP3", in capitals, points to audio. */
  lemma UpperCaseExtensionPointsToAudio(stem: string)
    ensures UrlPointsToAudio(stem + ".MP3")
  {
    var link := stem + ".MP3";
    var lower := ToLowerCase(link);
    assert lower[|lower| - 4..] == ".mp3" by {
      forall i | 0 <= i < 4
        ensures lower[|lower| - 4..][i] == ".mp3"[i]
      {
        assert lower[|lower| - 4 + i] == ToLowerChar(".MP3"[i]);
      }
    }
    assert EndsWith(lower, AUDIO_EXTENSIONS[0]);
  }

  /**
   * A link whose last character, lower-cased, ends none of the extensions
   * does not point to audio: a query string after ".mp3" defeats the test.
   */
  lemma TrailingQueryDefeatsAudioTest(link: string)
    requires |link| > 0
    requires ToLowerChar(link[|link| - 1]) !in {'3', 'g', 'c', 'v', 'a'}
    ensures !UrlPointsToAudio(link)
  {
    var lower := ToLowerCase(link);
    var last := lower[|lower| - 1];
    assert last == ToLowerChar(link[|link| - 1]);
    forall i | 0 <= i < |AUDIO_EXTENSIONS|
      ensures !EndsWith(lower, AUDIO_EXTENSIONS[i])
    {
      var ext := AUDIO_EXTENSIONS[i];
      assert ext[|ext| - 1] in {'3', 'g', 'c', 'v', 'a'};
      LastCharDiffers(lower, ext);
    }
  }

  /** A string whose last character differs from the suffix's does not end with it. */
  lemma LastCharDiffers(s: string, suffix: string)
    requires |s| > 0 && |suffix| > 0 && s[|s| - 1] != suffix[|suffix| - 1]
    ensures !EndsWith(s, suffix)
  {
    if |suffix| <= |s| {
      assert s[|s| - |suffix|..][|suffix| - 1] == s[|s| - 1];
    }
  }

  /**
   * `AUDIO_PATTERN.matcher(type).matches()` for `\Aaudio/.*\Z`: the type starts
   * with "audio/" (case matters) and the rest holds no line terminator.
   */
  predicate IsAudioType(mimeType: string)
    ensures IsAudioType(mimeType) <==>
      |mimeType| >= 6 && mimeType[..6] == "audio/" && forall i :: 6 <= i < |mimeType| ==> !IsLineTerminator(mimeType[i])
  {
    StartsWith(mimeType, "audio/") && DotStarMatches(mimeType[6..])
  }

  /**
   * An enclosure qualifies as audio when its type is non-empty and an audio
   * type, or its type is empty and its link points to audio.
   */
  predicate Qualifies(e: Enclosure)
    ensures Qualifies(e) <==>
      if e.mimeType.Some? && |e.mimeType.value| > 0 then IsAudioType(e.mimeType.value) else UrlPointsToAudio(e.link)
  {
    || (!IsEmpty(e.mimeType) && IsAudioType(e.mimeType.value))
    || (IsEmpty(e.mimeType) && UrlPointsToAudio(e.link))
  }

  function SourceOf(e: Enclosure): AudioSource
  {
    AudioSource(e.link, e.length)
  }

  /** `k` is the last qualifying enclosure of `encs`. */
  predicate LastQualifying(encs: seq<Enclosure>, k: int)
  {
    0 <= k < |encs| && Qualifies(encs[k]) && forall j :: k < j < |encs| ==> !Qualifies(encs[j])
  }

  /**
   * The enclosure loop of `tryInsertEpisode` from position `i` on, with `acc`
   * the source chosen so far: every qualifying enclosure overwrites it.
   */
  function ScanEnclosures(encs: seq<Enclosure>, i: nat, acc: Option<AudioSource>): (r: Option<AudioSource>)
    requires i <= |encs|
    ensures (forall j :: i <= j < |encs| ==> !Qualifies(encs[j])) ==> r == acc
    ensures (exists j :: i <= j < |encs| && Qualifies(encs[j])) ==>
              exists k :: i <= k < |encs| && LastQualifying(encs, k) && r == Some(SourceOf(encs[k]))
    decreases |encs| - i
  {
    if i == |encs| then acc
    else ScanEnclosures(encs, i + 1, if Qualifies(encs[i]) then Some(SourceOf(encs[i])) else acc)
  }

  /** The audio enclosure of an item: the last qualifying one, with its length; none if none qualifies. */
  function SelectEnclosure(encs: seq<Enclosure>): (r: Option<AudioSource>)
    ensures r.None? <==> forall j :: 0 <= j < |encs| ==> !Qualifies(encs[j])
    ensures r.Some? ==> exists k :: LastQualifying(encs, k) && r.value == SourceOf(encs[k])
  {
    ScanEnclosures(encs, 0, None)
  }

  /**
   * The audio source of an item: the selected enclosure, else the item's own
   * link when that points to audio (with no known size), else none.
   */
  function ResolveAudio(item: Item): (r: Option<AudioSource>)
    ensures SelectEnclosure(item.enclosures).Some? ==> r == SelectEnclosure(item.enclosures)
    ensures r.Some? && SelectEnclosure(item.enclosures).None? ==>
              item.link == Some(r.value.link) && UrlPointsToAudio(r.value.link) && r.value.size.None?
  {
    match SelectEnclosure(item.enclosures)
    case Some(src) => Some(src)
    case None =>
      if item.link.Some? && UrlPointsToAudio(item.link.value) then Some(AudioSource(item.link.value, None))
      else None
  }

  /** An item has no audio source exactly when no enclosure qualifies and its link does not point to audio. */
  lemma ResolveAudioNoneIff(item: Item)
    ensures ResolveAudio(item).None? <==>
              (forall j :: 0 <= j < |item.enclosures| ==> !Qualifies(item.enclosures[j]))
              && (item.link.None? || !UrlPointsToAudio(item.link.value))
  {
  }

  /** A typed enclosure that is not audio never qualifies, whatever its link says. */
  lemma NonAudioTypeNeverQualifies(e: Enclosure)
    requires e.mimeType.Some? && |e.mimeType.value| > 0 && !IsAudioType(e.mimeType.value)
    ensures !Qualifies(e)
  {
  }

  /** An `audio/mpeg` enclosure next to a `text/html` one is the one chosen, in either order. */
  lemma AudioBeatsHtmlEnclosure(audio: string, page: string, len: Option<int>)
    ensures var a := Enclosure(audio, Some("audio/mpeg"), len);
            var h := Enclosure(page, Some("text/html"), None);
            SelectEnclosure([a, h]) == Some(AudioSource(audio, len)) &&
            SelectEnclosure([h, a]) == Some(AudioSource(audio, len))
  {
    var a := Enclosure(audio, Some("audio/mpeg"), len);
    var h := Enclosure(page, Some("text/html"), None);
    assert Qualifies(a);
    assert "text/html"[..6][0] != "audio/"[0];
    assert !Qualifies(h);
    assert LastQualifying([a, h], 0);
    assert LastQualifying([h, a], 1);
  }

  /**
   * `correctDate`: the publication date, unless it is missing, after `now` or
   * before the podcast epoch, in which case `now`.
   */
  function CorrectDate(date: Option<Int64>, now: Int64, epoch: Int64): (r: Int64)
    ensures r == now || (date == Some(r) && epoch <= r <= now)
    ensures date.Some? && epoch <= date.value <= now ==> r == date.value
    ensures date.None? || date.value > now || date.value < epoch ==> r == now
  {
    if date.None? || date.value > now || date.value < epoch then now else date.value
  }

  /** The corrected date is never after `now`, and correcting twice changes nothing. */
  lemma CorrectDateBoundedAndIdempotent(date: Option<Int64>, now: Int64, epoch: Int64)
    ensures CorrectDate(date, now, epoch) <= now
    ensures CorrectDate(Some(CorrectDate(date, now, epoch)), now, epoch) == CorrectDate(date, now, epoch)
  {
  }

  /** `getShortDescription` on the plain text: its first `maxLength` characters. */
  function ShortDescription(plain: string, maxLength: nat): (r: string)
    ensures |r| == if |plain| < maxLength then |plain| else maxLength
    ensures StartsWith(plain, r)
    ensures r == plain <==> |plain| <= maxLength
  {
    plain[..if |plain| > maxLength then maxLength else |plain|]
  }

  /** Shortening an already short description changes nothing. */
  lemma ShortDescriptionIdempotent(plain: string, maxLength: nat)
    ensures ShortDescription(ShortDescription(plain, maxLength), maxLength) == ShortDescription(plain, maxLength)
  {
  }
}

=== FILE: ids.dfy ===
/**
 * The identifier generator: `PodcastHelper.generateId`, Java's
 * `String.hashCode` shifted from the signed `int` range into [0, 2^32).
 * Both subscriptions (by feed URL) and episodes (by audio URL) are keyed by it.
 */
module Ids {
  import opened JavaLang

  /**
   * The hash as an unbounded polynomial in 31, evaluated by Horner's rule
   * over the code units, before any narrowing. `PolynomialIsDocumentedSum`
   * shows it is the sum form of the `String.hashCode` API documentation.
   */
  function Polynomial(units: seq<int>): int
  {
    if |units| == 0 then 0 else 31 * Polynomial(units[..|units| - 1]) + units[|units| - 1]
  }

  function Pow31(k: nat): (p: int)
    ensures p >= 1
  {
    if k == 0 then 1 else 31 * Pow31(k - 1)
  }

  /** The documented form: the sum of u[i] * 31^(n-1-i) over the n code units u. */
  function DocumentedSum(units: seq<int>): int
  {
    if |units| == 0 then 0 else units[0] * Pow31(|units| - 1) + DocumentedSum(units[1..])
  }

  /** Horner's rule peels off the leading unit with its full weight 31^(n-1). */
  lemma {:induction false} PolynomialLeading(units: seq<int>)
    requires |units| > 0
    ensures Polynomial(units) == units[0] * Pow31(|units| - 1) + Polynomial(units[1..])
    decreases |units|
  {
    var n := |units|;
    if n == 1 {
      assert units[..0] == [];
      assert units[1..] == [];
    } else {
      var init := units[..n - 1];
      PolynomialLeading(init);
      assert init[0] == units[0];
      assert init[1..] == units[1..][..n - 2];
      assert units[1..][n - 2] == units[n - 1];
      calc {
        Polynomial(units);
        31 * Polynomial(init) + units[n - 1];
        31 * (units[0] * Pow31(n - 2) + Polynomial(init[1..])) + units[n - 1];
        { assert 31 * (units[0] * Pow31(n - 2)) == units[0] * Pow31(n - 1); }
        units[0] * Pow31(n - 1) + (31 * Polynomial(units[1..][..n - 2]) + units[1..][n - 2]);
        units[0] * Pow31(n - 1) + Polynomial(units[1..]);
      }
    }
  }

  /** The Horner evaluation equals the documented sum, for every sequence of units. */
  lemma {:induction false} PolynomialIsDocumentedSum(units: seq<int>)
    ensures Polynomial(units) == DocumentedSum(units)
    decreases |units|
  {
    if |units| > 0 {
      PolynomialLeading(units);
      PolynomialIsDocumentedSum(units[1..]);
    }
  }

  /** The `int` accumulator of `String.hashCode` after consuming `units` left to right. */
  function HashAccumulator(units: seq<int>): (h: int)
    ensures -TWO31 <= h < TWO31
    ensures h == WrapInt32(Polynomial(units))
  {
    if |units| == 0 then 0
    else
      var prev := units[..|units| - 1];
      WrapInt32Step(Polynomial(prev), units[|units| - 1]);
      WrapInt32(31 * HashAccumulator(prev) + units[|units| - 1])
  }

  /** `String.hashCode()` of a Java string holding the characters of `s`. */
  function HashCode(s: string): (h: int)
    ensures -TWO31 <= h < TWO31
    ensures h == WrapInt32(Polynomial(Utf16(s)))
  {
    HashAccumulator(Utf16(s))
  }

  /** `String.hashCode()` as the loop the JDK runs over the `char`s of the string. */
  method ComputeHashCode(s: string) returns (h: int)
    ensures h == HashCode(s)
    ensures h == WrapInt32(Polynomial(Utf16(s)))
  {
    var units := Utf16(s);
    h := 0;
    var i := 0;
    while i < |units|
      invariant 0 <= i <= |units|
      invariant h == HashAccumulator(units[..i])
    {
      assert units[..i + 1][..i] == units[..i];
      h := WrapInt32(31 * h + units[i]);
      i := i + 1;
    }
    assert units[..i] == units;
  }

  /**
   * `generateId(url)`: `(long) url.hashCode() - Integer.MIN_VALUE`, computed in
   * `long` arithmetic (no overflow is possible there).
   */
  function GenerateId(url: string): (id: int)
    ensures 0 <= id < TWO32
  {
    HashCode(url) + TWO31
  }

  /** The identifier is the UTF-16 polynomial hash, offset by 2^31, reduced modulo 2^32. */
  lemma GenerateIdClosedForm(url: string)
    ensures GenerateId(url) == (Polynomial(Utf16(url)) + TWO31) % TWO32
  {
  }

  /** Two URLs share an identifier exactly when their Java hash codes coincide. */
  lemma GenerateIdCollidesIffHashCollides(a: string, b: string)
    ensures GenerateId(a) == GenerateId(b) <==> HashCode(a) == HashCode(b)
  {
  }

  /** The empty string's hash is 0, so its identifier is 2^31. */
  lemma GenerateIdOfEmpty()
    ensures GenerateId("") == TWO31
  {
  }

  /** For a one-character BMP string the hash is the character's code. */
  lemma {:induction false} GenerateIdOfSingleBmpChar(c: char)
    requires c as int < 0x1_0000
    ensures GenerateId([c]) == c as int + TWO31
  {
    SingleBmpCharUnits(c);
    var u := [c as int];
    assert u[..0] == [];
    assert Polynomial(u) == c as int;
  }

  lemma SingleBmpCharUnits(c: char)
    requires c as int < 0x1_0000
    ensures Utf16([c]) == [c as int]
  {
    assert [c][..0] == [];
  }

  /** The UTF-16 code units of "http://dkhejvb". */
  const ZERO_URL_UNITS: seq<int> := [104, 116, 116, 112, 58, 47, 47, 100, 107, 104, 101, 106, 118, 98]

  lemma ZeroUrlUnits()
    ensures Utf16("http://dkhejvb") == ZERO_URL_UNITS
  {
    Utf16OfBmp("http://dkhejvb");
  }

  lemma ZeroUrlPolynomial()
    ensures Polynomial(ZERO_URL_UNITS) == 2633834454510850801664
  {
    var units := ZERO_URL_UNITS;
    assert Polynomial(units[..1]) == 104;
    assert units[..2][..1] == units[..1];
    assert Polynomial(units[..2]) == 3340;
    assert units[..3][..2] == units[..2];
    assert Polynomial(units[..3]) == 103656;
    assert units[..4][..3] == units[..3];
    assert Polynomial(units[..4]) == 3213448;
    assert units[..5][..4] == units[..4];
    assert Polynomial(units[..5]) == 99616946;
    assert units[..6][..5] == units[..5];
    assert Polynomial(units[..6]) == 3088125373;
    assert units[..7][..6] == units[..6];
    assert Polynomial(units[..7]) == 95731886610;
    assert units[..8][..7] == units[..7];
    assert Polynomial(units[..8]) == 2967688485010;
    assert units[..9][..8] == units[..8];
    assert Polynomial(units[..9]) == 91998343035417;
    assert units[..10][..9] == units[..9];
    assert Polynomial(units[..10]) == 2851948634098031;
    assert units[..11][..10] == units[..10];
    assert Polynomial(units[..11]) == 88410407657039062;
    assert units[..12][..11] == units[..11];
    assert Polynomial(units[..12]) == 2740722637368211028;
    assert units[..13][..12] == units[..12];
    assert Polynomial(units[..13]) == 84962401758414541986;
    assert units[..14][..13] == units[..13];
    assert Polynomial(units[..14]) == 2633834454510850801664;
    assert units[..14] == units;
  }

  /**
   * An identifier can be 0, the value `addSubscription` returns for
   * "already subscribed": "http://dkhejvb" hashes to `Integer.MIN_VALUE`.
   */
  lemma ZeroIdentifierExists()
    ensures GenerateId("http://dkhejvb") == 0
  {
    ZeroUrlUnits();
    ZeroUrlPolynomial();
    assert WrapInt32(2633834454510850801664) == -TWO31;
  }
}

=== FILE: java_lang.dfy ===
/**
 * The parts of the Java platform that the podcast core leans on, written out
 * explicitly: two's-complement `int`/`long` arithmetic, the UTF-16 view of a
 * `String`, root-locale `toLowerCase`, the character classes of
 * `java.util.regex`, nullable references and the exceptions the core catches.
 */
module JavaLang {

  const TWO31: int := 0x8000_0000
  const TWO32: int := 0x1_0000_0000
  const TWO63: int := 0x8000_0000_0000_0000
  const TWO64: int := 0x1_0000_0000_0000_0000

  /** Values of a Java `long`. */
  type Int64 = x: int | -0x8000_0000_0000_0000 <= x < 0x8000_0000_0000_0000

  /** A nullable Java reference. */
  datatype Option<T> = None | Some(value: T)

  /** The exception families the sync worker distinguishes in its catch clauses. */
  datatype ExceptionFamily =
    | IOFamily            // java.io.IOException and subclasses (MalformedURLException, ...)
    | RemoteFamily        // android.os.RemoteException
    | DataFormatFamily    // java.util.zip.DataFormatException
    | XmlPullParserFamily // org.xmlpull.v1.XmlPullParserException
    | OtherFamily         // any other Exception

  /** A thrown exception: its family, its runtime class's simple name and its (nullable) message. */
  datatype Exception = Exception(family: ExceptionFamily, simpleName: string, message: Option<string>)

  // ---------------------------------------------------------------------------
  // Fixed-width arithmetic

  /** Two's-complement narrowing of an unbounded integer to 32 bits (a Java `int`). */
  function WrapInt32(x: int): (r: int)
    ensures -TWO31 <= r < TWO31
    ensures -TWO31 <= x < TWO31 ==> r == x
  {
    (x + TWO31) % TWO32 - TWO31
  }

  /** Two's-complement narrowing of an unbounded integer to 64 bits (a Java `long`). */
  function WrapInt64(x: int): (r: Int64)
    ensures -TWO63 <= x < TWO63 ==> r == x
  {
    (x + TWO63) % TWO64 - TWO63
  }

  /**
   * Java's `long` subtraction `a - b`: the exact difference, which lies
   * strictly between -2^64 and 2^64, moved back into range by one 2^64.
   */
  function SubInt64(a: Int64, b: Int64): (r: Int64)
    ensures -TWO63 <= a - b < TWO63 ==> r == a - b
  {
    var d := a - b;
    if d >= TWO63 then d - TWO64 else if d < -TWO63 then d + TWO64 else d
  }

  /** The `long` subtraction is the exact difference narrowed to 64 bits. */
  lemma SubInt64Wraps(a: Int64, b: Int64)
    ensures SubInt64(a, b) == WrapInt64(a - b)
  {
  }

  /** Adding a multiple of 2^32 does not change the 32-bit value. */
  lemma {:induction false} WrapInt32Periodic(x: int, q: int)
    ensures WrapInt32(x + TWO32 * q) == WrapInt32(x)
    decreases if q < 0 then -q else q
  {
    if q > 0 {
      WrapInt32Periodic(x, q - 1);
      assert x + TWO32 * q == (x + TWO32 * (q - 1)) + TWO32;
    } else if q < 0 {
      WrapInt32Periodic(x, q + 1);
      assert x + TWO32 * q == (x + TWO32 * (q + 1)) - TWO32;
    }
  }

  /** Narrowing differs from its argument by a multiple of 2^32. */
  lemma WrapInt32Offset(x: int) returns (q: int)
    ensures WrapInt32(x) == x + TWO32 * q
  {
    q := -((x + TWO31) / TWO32);
  }

  /** Java's `31 * h + u` on an `int` h may narrow h before or after: the result is the same. */
  lemma WrapInt32Step(x: int, u: int)
    ensures WrapInt32(31 * WrapInt32(x) + u) == WrapInt32(31 * x + u)
  {
    var q := WrapInt32Offset(x);
    assert 31 * WrapInt32(x) + u == (31 * x + u) + TWO32 * (31 * q);
    WrapInt32Periodic(31 * x + u, 31 * q);
  }

  // ---------------------------------------------------------------------------
  // UTF-16

  /**
   * The UTF-16 code units of one Unicode scalar value: itself when it lies in
   * the Basic Multilingual Plane, a high/low surrogate pair otherwise.
   */
  function Utf16Units(c: char): (r: seq<int>)
    ensures |r| == (if c as int < 0x1_0000 then 1 else 2)
    ensures forall i :: 0 <= i < |r| ==> 0 <= r[i] < 0x1_0000
    ensures |r| == 2 ==> 0xD800 <= r[0] < 0xDC00 <= r[1] < 0xE000
  {
    var v := c as int;
    if v < 0x1_0000 then [v]
    else [0xD800 + (v - 0x1_0000) / 0x400, 0xDC00 + (v - 0x1_0000) % 0x400]
  }

  /** The UTF-16 code units of a string, i.e. the `char`s of the Java `String`. */
  function Utf16(s: string): (r: seq<int>)
    ensures |s| <= |r| <= 2 * |s|
    ensures forall i :: 0 <= i < |r| ==> 0 <= r[i] < 0x1_0000
  {
    if |s| == 0 then [] else Utf16(s[..|s| - 1]) + Utf16Units(s[|s| - 1])
  }

  /** A string inside the Basic Multilingual Plane has one code unit per character. */
  lemma {:induction false} Utf16OfBmp(s: string)
    requires forall i :: 0 <= i < |s| ==> s[i] as int < 0x1_0000
    ensures |Utf16(s)| == |s|
    ensures forall i :: 0 <= i < |s| ==> Utf16(s)[i] == s[i] as int
  {
    if |s| > 0 {
      Utf16OfBmp(s[..|s| - 1]);
    }
  }

  // ---------------------------------------------------------------------------
  // Characters and strings

  const KELVIN_SIGN: char := '\U{212A}'

  /**
   * `Character.toLowerCase` restricted to the characters whose lower-case form
   * is ASCII: 'A'..'Z' and KELVIN SIGN. Other characters are kept as they are.
   * Root-locale `String.toLowerCase` also turns U+0130 into 'i' followed by
   * U+0307; the tests that read the result (a leading `\w` run followed by
   * "://", an ASCII extension at the end) reach the same verdict either way,
   * because U+0307 is not a word character and ends no extension.
   */
  function ToLowerChar(c: char): (r: char)
  {
    if 'A' <= c <= 'Z' then (c as int + 32) as char
    else if c == KELVIN_SIGN then 'k'
    else c
  }

  /** `String.toLowerCase()` in the root locale, character by character. */
  function ToLowerCase(s: string): (r: string)
    ensures |r| == |s|
    ensures forall i :: 0 <= i < |s| ==> r[i] == ToLowerChar(s[i])
  {
    seq(|s|, i requires 0 <= i < |s| => ToLowerChar(s[i]))
  }

  /** Lower-casing leaves no ASCII capital behind, so doing it twice is doing it once. */
  lemma ToLowerCaseIdempotent(s: string)
    ensures forall i :: 0 <= i < |s| ==> !('A' <= ToLowerCase(s)[i] <= 'Z')
    ensures ToLowerCase(ToLowerCase(s)) == ToLowerCase(s)
  {
  }

  /** `String.endsWith`. */
  predicate EndsWith(s: string, suffix: string)
  {
    |suffix| <= |s| && s[|s| - |suffix|..] == suffix
  }

  /** `String.startsWith`. */
  predicate StartsWith(s: string, prefix: string)
  {
    |prefix| <= |s| && s[..|prefix|] == prefix
  }

  /** The regex class `\w` (without UNICODE_CHARACTER_CLASS): `[a-zA-Z_0-9]`. */
  predicate IsWordChar(c: char)
  {
    ('a' <= c <= 'z') || ('A' <= c <= 'Z') || ('0' <= c <= '9') || c == '_'
  }

  /** The characters `.` refuses to match outside DOTALL mode. */
  predicate IsLineTerminator(c: char)
  {
    c == '\n' || c == '\r' || c == '\U{0085}' || c == '\U{2028}' || c == '\U{2029}'
  }

  /** The whole string is matched by the regex `.*`. */
  predicate DotStarMatches(s: string)
  {
    forall i :: 0 <= i < |s| ==> !IsLineTerminator(s[i])
  }

  /** `TextUtils.isEmpty`: null or of length zero. */
  predicate IsEmpty(s: Option<string>)
  {
    s.None? || |s.value| == 0
  }
}

=== FILE: podcast_helper.dfy ===
/**
 * `PodcastHelper`: URL normalisation and subscribing, the delete-or-mark-GONE
 * decision for an episode, and the list-image width clamp. Calls into the
 * content resolver act on the `Store` model; the dialog, toast, download
 * manager and file deletions around them are not modelled.
 */
module PodcastHelper {
  import opened JavaLang
  import opened Ids
  import opened Store

  // ---------------------------------------------------------------------------
  // URL normalisation

  /** The length of the run of word characters that starts `s`. */
  function WordPrefixLength(s: string): (n: nat)
    ensures n <= |s|
    ensures forall i :: 0 <= i < n ==> IsWordChar(s[i])
    ensures n < |s| ==> !IsWordChar(s[n])
  {
    if |s| == 0 || !IsWordChar(s[0]) then 0 else 1 + WordPrefixLength(s[1..])
  }

  /**
   * `s` matches `^\\w+://.*` with the `\\w+` covering its first `k`
   * characters: word characters, then "://", then no line terminator.
   */
  predicate SchemeAt(s: string, k: int)
  {
    && 1 <= k && k + 3 <= |s|
    && (forall i :: 0 <= i < k ==> IsWordChar(s[i]))
    && s[k..k + 3] == "://"
    && DotStarMatches(s[k + 3..])
  }

  /**
   * `s.matches("^\\w+://.*")`. Since ':' is not a word character, the `\\w+`
   * can only be the whole leading run of word characters.
   */
  predicate HasScheme(s: string)
    ensures HasScheme(s) <==> exists k :: SchemeAt(s, k)
  {
    OnlyWordRunSplits(s);
    SchemeAt(s, WordPrefixLength(s))
  }

  /** A split point of the regex can only be the end of the leading word run. */
  lemma OnlyWordRunSplits(s: string)
    ensures forall k :: SchemeAt(s, k) ==> k == WordPrefixLength(s)
  {
    forall k | SchemeAt(s, k)
      ensures k == WordPrefixLength(s)
    {
      assert s[k] == s[k..k + 3][0] == ':';
    }
  }

  /** The only split point that can work is the end of the word run. */
  lemma SchemeAtIsWordRun(s: string, k: int)
    requires SchemeAt(s, k)
    ensures k == WordPrefixLength(s) && HasScheme(s)
  {
    assert s[k] == s[k..k + 3][0] == ':';
  }

  /** A URL with a scheme holds no line terminator at all. */
  lemma HasSchemeHasNoLineTerminator(s: string)
    requires HasScheme(s)
    ensures DotStarMatches(s)
  {
    var n := WordPrefixLength(s);
    forall i | 0 <= i < |s|
      ensures !IsLineTerminator(s[i])
    {
      if i >= n + 3 {
        assert s[i] == s[n + 3..][i - n - 3];
      } else if i >= n {
        assert s[i] == s[n..n + 3][i - n];
      }
    }
  }

  const DEFAULT_SCHEME: string := "http://"

  /** The URL `addSubscription` subscribes to: "http://" is prepended unless the lower-cased URL has a scheme. */
  function NormalizeUrl(url: string): (r: string)
    ensures HasScheme(ToLowerCase(url)) ==> r == url
    ensures !HasScheme(ToLowerCase(url)) ==> r == DEFAULT_SCHEME + url
  {
    if !HasScheme(ToLowerCase(url)) then DEFAULT_SCHEME + url else url
  }

  /** Lower-casing keeps a scheme split point a scheme split point. */
  lemma {:induction false} LowerCaseKeepsSchemeAt(s: string, k: int)
    requires SchemeAt(s, k)
    ensures SchemeAt(ToLowerCase(s), k)
  {
    var lower := ToLowerCase(s);
    assert lower[k..k + 3] == "://" by {
      assert s[k..k + 3][0] == s[k] && s[k..k + 3][1] == s[k + 1] && s[k..k + 3][2] == s[k + 2];
    }
    var tail := lower[k + 3..];
    forall i | 0 <= i < |tail|
      ensures !IsLineTerminator(tail[i])
    {
      assert s[k + 3..][i] == s[k + 3 + i];
    }
  }

  /** A URL with a scheme, in whatever case, is subscribed to as given. */
  lemma {:induction false} NormalizeKeepsSchemedUrl(url: string)
    requires HasScheme(url)
    ensures NormalizeUrl(url) == url
  {
    LowerCaseKeepsSchemeAt(url, WordPrefixLength(url));
    SchemeAtIsWordRun(ToLowerCase(url), WordPrefixLength(url));
  }

  /** "http://" in front of a URL without line terminators is a scheme, so that URL is kept. */
  lemma {:induction false} HttpPrefixedUrlIsKept(url: string)
    requires DotStarMatches(url)
    ensures NormalizeUrl(DEFAULT_SCHEME + url) == DEFAULT_SCHEME + url
  {
    var r := DEFAULT_SCHEME + url;
    assert r[..7] == DEFAULT_SCHEME;
    assert r[4..7] == "://";
    forall i | 0 <= i < |r| - 7
      ensures !IsLineTerminator(r[7..][i])
    {
      assert r[7..][i] == url[i];
    }
    assert SchemeAt(r, 4);
    SchemeAtIsWordRun(r, 4);
    NormalizeKeepsSchemedUrl(r);
  }

  /** Normalising twice is normalising once, for URLs without line terminators. */
  lemma {:induction false} NormalizeUrlIdempotent(url: string)
    requires DotStarMatches(url)
    ensures NormalizeUrl(NormalizeUrl(url)) == NormalizeUrl(url)
  {
    if !HasScheme(ToLowerCase(url)) {
      HttpPrefixedUrlIsKept(url);
    }
  }

  /** A URL holding a line terminator gets "http://" prepended on every pass. */
  lemma {:induction false} NormalizeUrlNotIdempotentWithLineTerminator(url: string)
    requires !DotStarMatches(url)
    ensures NormalizeUrl(url) == DEFAULT_SCHEME + url
    ensures NormalizeUrl(NormalizeUrl(url)) == DEFAULT_SCHEME + DEFAULT_SCHEME + url
  {
    var i :| 0 <= i < |url| && IsLineTerminator(url[i]);
    assert IsLineTerminator(ToLowerCase(url)[i]);
    if HasScheme(ToLowerCase(url)) {
      HasSchemeHasNoLineTerminator(ToLowerCase(url));
    }
    var r := DEFAULT_SCHEME + url;
    assert r[7 + i] == url[i];
    assert IsLineTerminator(ToLowerCase(r)[7 + i]);
    if HasScheme(ToLowerCase(r)) {
      HasSchemeHasNoLineTerminator(ToLowerCase(r));
    }
  }

  // ---------------------------------------------------------------------------
  // Subscribing

  /** What `addSubscription` returns or throws. */
  datatype SubscribeResult = Subscribed(id: int) | SubscriptionNotInserted

  /** The row `addSubscription` inserts: feed URL, refresh mode and id, nothing more. */
  function SubscriptionRow(url: string, modeOrdinal: int, id: int): Row
  {
    map[PFURL := Text(url), PRMODE := Int(modeOrdinal), ID := Int(id)]
  }

  /**
   * `addSubscription(url, refreshMode)`. Returns 0 when a podcast with the
   * normalised URL's id exists; otherwise inserts the subscription row and
   * returns its id, unless the resolver refuses the insert
   * (`insertSucceeds` false), which raises `SubscriptionNotInsertedException`.
   */
  function AddSubscription(store: Store, url: string, modeOrdinal: int, insertSucceeds: bool)
    : (r: (Store, SubscribeResult))
    ensures var id := GenerateId(NormalizeUrl(url));
      && (id in store.podcasts ==> r == (store, Subscribed(0)))
      && (id !in store.podcasts && insertSucceeds ==>
            r.1 == Subscribed(id)
            && r.0.podcasts == store.podcasts[id := SubscriptionRow(NormalizeUrl(url), modeOrdinal, id)]
            && r.0.episodes == store.episodes)
      && (id !in store.podcasts && !insertSucceeds ==> r == (store, SubscriptionNotInserted))
  {
    var u := NormalizeUrl(url);
    var id := GenerateId(u);
    if id in store.podcasts then (store, Subscribed(0))
    else if !insertSucceeds then (store, SubscriptionNotInserted)
    else (Apply(store, Insert(Podcasts, id, SubscriptionRow(u, modeOrdinal, id))), Subscribed(id))
  }

  /** Subscribing again to the same URL returns 0 and changes nothing. */
  lemma {:induction false} AddSubscriptionTwice(store: Store, url: string, mode: int, mode2: int, ok2: bool)
    ensures var (s1, r1) := AddSubscription(store, url, mode, true);
            AddSubscription(s1, url, mode2, ok2) == (s1, Subscribed(0))
  {
    var id := GenerateId(NormalizeUrl(url));
    var (s1, r1) := AddSubscription(store, url, mode, true);
    assert id in s1.podcasts;
  }

  /** A URL without a scheme and the same URL with "http://" in front name the same subscription. */
  lemma {:induction false} BareUrlSubscribesAsHttp(store: Store, url: string, mode: int, mode2: int, ok2: bool)
    requires !HasScheme(ToLowerCase(url)) && DotStarMatches(url)
    ensures var (s1, _) := AddSubscription(store, url, mode, true);
            AddSubscription(s1, DEFAULT_SCHEME + url, mode2, ok2) == (s1, Subscribed(0))
  {
    HttpPrefixedUrlIsKept(url);
    var (s1, _) := AddSubscription(store, url, mode, true);
    assert GenerateId(DEFAULT_SCHEME + url) in s1.podcasts;
  }

  /**
   * A fresh subscription can be given id 0, which reads as "already
   * subscribed": the row is inserted, yet the caller is told nothing was.
   */
  lemma FreshSubscriptionCanReturnZero(mode: int)
    ensures var (s1, r) := AddSubscription(Store(map[], map[]), "http://dkhejvb", mode, true);
            r == Subscribed(0) && 0 in s1.podcasts
  {
    ZeroIdentifierExists();
    assert DEFAULT_SCHEME + "dkhejvb" == "http://dkhejvb";
    HttpPrefixedUrlIsKept("dkhejvb");
  }

  /** The answer `addSubscription` evidently means to give, with "already subscribed" apart from every id. */
  datatype Subscription = AlreadySubscribed | NewSubscription(id: int) | NotInserted

  /** `addSubscription` with a result that cannot be mistaken for an id; the store changes as before. */
  function Subscribe(store: Store, url: string, modeOrdinal: int, insertSucceeds: bool): (r: (Store, Subscription))
    ensures r.0 == AddSubscription(store, url, modeOrdinal, insertSucceeds).0
    ensures r.1.AlreadySubscribed? <==> GenerateId(NormalizeUrl(url)) in store.podcasts
    ensures r.1.NewSubscription? ==> r.1.id !in store.podcasts && r.1.id in r.0.podcasts
  {
    var id := GenerateId(NormalizeUrl(url));
    if id in store.podcasts then (store, AlreadySubscribed)
    else if !insertSucceeds then (store, NotInserted)
    else (AddSubscription(store, url, modeOrdinal, true).0, NewSubscription(id))
  }

  /**
   * The two answers agree except that `addSubscription` folds "already
   * subscribed" and a new subscription with id 0 into the same 0.
   */
  lemma SubscribeRefinesAddSubscription(store: Store, url: string, modeOrdinal: int, insertSucceeds: bool)
    ensures var old1 := AddSubscription(store, url, modeOrdinal, insertSucceeds).1;
            var new1 := Subscribe(store, url, modeOrdinal, insertSucceeds).1;
      && (new1.NotInserted? <==> old1.SubscriptionNotInserted?)
      && (new1.NewSubscription? ==> old1 == Subscribed(new1.id))
      && (old1 == Subscribed(0) <==> new1.AlreadySubscribed? || new1 == NewSubscription(0))
  {
  }

  /** Unlike `addSubscription`, `Subscribe` reports the fresh subscription of "http://dkhejvb" as new. */
  lemma SubscribeKeepsZeroIdApart(mode: int)
    ensures Subscribe(Store(map[], map[]), "http://dkhejvb", mode, true).1 == NewSubscription(0)
  {
    ZeroIdentifierExists();
    assert DEFAULT_SCHEME + "dkhejvb" == "http://dkhejvb";
    HttpPrefixedUrlIsKept("dkhejvb");
  }

  // ---------------------------------------------------------------------------
  // Deleting episodes

  /** The columns `markEpisodeGone` writes when the episode is still in its feed. */
  const GONE_VALUES: Row := map[ESTATE := EState(Gone), EDFIN := Int(0), EDID := Int(0)]

  /** The row passes the query's `ESTATE != GONE` filter (SQL: a NULL or unset state does not). */
  predicate NotGone(row: Row)
  {
    ESTATE in row && row[ESTATE] != Null && row[ESTATE] != EState(Gone)
  }

  /** The first row of the episode-join-podcast query for episode `id`, if any. */
  function QueryEpisodeWithPodcast(store: Store, id: int): (r: Option<(Row, Row)>)
    ensures r.Some? <==> id in store.episodes && NotGone(store.episodes[id])
                         && LongOf(store.episodes[id], EPID) in store.podcasts
    ensures r.Some? ==> r.value == (store.episodes[id], store.podcasts[LongOf(store.episodes[id], EPID)])
  {
    if id in store.episodes && NotGone(store.episodes[id]) && LongOf(store.episodes[id], EPID) in store.podcasts
    then Some((store.episodes[id], store.podcasts[LongOf(store.episodes[id], EPID)]))
    else None
  }

  /** `deleteEpisode(id)`: remove the row; true when exactly one row went. */
  function DeleteEpisode(store: Store, id: int): (r: (Store, bool))
    ensures r.0.podcasts == store.podcasts
    ensures r.0.episodes == store.episodes - {id}
    ensures r.1 <==> id in store.episodes
  {
    var w := Delete(Episodes, id);
    (Apply(store, w), Affected(store, w) == 1)
  }

  /**
   * `markEpisodeGone(id, quiet)`. An episode that is absent or already GONE is
   * left alone (false). One whose last-seen timestamp is older than its
   * podcast's last sync is no longer in the feed and is deleted; any other is
   * marked GONE with its download fields cleared.
   */
  function MarkEpisodeGone(store: Store, id: int): (r: (Store, bool))
    ensures r.0.podcasts == store.podcasts
    ensures QueryEpisodeWithPodcast(store, id).None? ==> r == (store, false)
    ensures QueryEpisodeWithPodcast(store, id).Some? ==>
      var (e, p) := QueryEpisodeWithPodcast(store, id).value;
      && r.1
      && (LongOf(e, ETSTAMP) < LongOf(p, PTSTAMP) ==> r.0.episodes == store.episodes - {id})
      && (LongOf(e, ETSTAMP) >= LongOf(p, PTSTAMP) ==> r.0.episodes == store.episodes[id := e + GONE_VALUES])
  {
    match QueryEpisodeWithPodcast(store, id)
    case None => (store, false)
    case Some((e, p)) =>
      if LongOf(e, ETSTAMP) < LongOf(p, PTSTAMP) then DeleteEpisode(store, id)
      else
        var w := Update(Episodes, id, GONE_VALUES);
        (Apply(store, w), Affected(store, w) == 1)
  }

  /** Marking an episode gone twice: the second call finds nothing to do. */
  lemma {:induction false} MarkEpisodeGoneTwice(store: Store, id: int)
    ensures var (s1, _) := MarkEpisodeGone(store, id);
            MarkEpisodeGone(s1, id) == (s1, false)
  {
    var (s1, _) := MarkEpisodeGone(store, id);
    if QueryEpisodeWithPodcast(store, id).Some? {
      var (e, p) := QueryEpisodeWithPodcast(store, id).value;
      if LongOf(e, ETSTAMP) >= LongOf(p, PTSTAMP) {
        assert (e + GONE_VALUES)[ESTATE] == EState(Gone);
        assert !NotGone(s1.episodes[id]);
      }
    }
  }

  /** Only the row of `id` can change. */
  lemma MarkEpisodeGoneTouchesOnlyItsRow(store: Store, id: int, other: int)
    requires other != id
    ensures var s1 := MarkEpisodeGone(store, id).0;
            (other in s1.episodes <==> other in store.episodes)
            && (other in store.episodes ==> s1.episodes[other] == store.episodes[other])
  {
  }

  // ---------------------------------------------------------------------------
  // Image width

  /** `getListImageWidth`: the bitmap width, clamped to the configured bounds. */
  function ListImageWidth(width: int, minWidth: int, maxWidth: int): (r: int)
    ensures width < minWidth ==> r == minWidth
    ensures minWidth <= width && width > maxWidth ==> r == maxWidth
    ensures minWidth <= width <= maxWidth ==> r == width
    ensures minWidth <= maxWidth ==> minWidth <= r <= maxWidth
  {
    if width < minWidth then minWidth
    else if width > maxWidth then maxWidth
    else width
  }

  /** With sane bounds the clamp is monotone and clamping a clamped width changes nothing. */
  lemma ListImageWidthMonotoneIdempotent(w1: int, w2: int, minWidth: int, maxWidth: int)
    requires minWidth <= maxWidth
    ensures w1 <= w2 ==> ListImageWidth(w1, minWidth, maxWidth) <= ListImageWidth(w2, minWidth, maxWidth)
    ensures ListImageWidth(ListImageWidth(w1, minWidth, maxWidth), minWidth, maxWidth)
            == ListImageWidth(w1, minWidth, maxWidth)
  {
  }
}

=== FILE: store.dfy ===
/**
 * The content provider the core talks to, reduced to two keyed tables of
 * rows. A row is the set of columns that have been written (a
 * `ContentValues`); a column that was never written holds the database's
 * default, which this model does not fix.
 */
module Store {
  import opened JavaLang

  /** The podcast (P...) and episode (E...) columns the core reads or writes. */
  datatype Column =
    | ID
    | PFURL | PURL | PNAME | PDESCR | PSDESCR | PTSTAMP | PSTATE | PRMODE | PERROR
    | ENAME | EAURL | EDESCR | ESDESCR | EURL | ESIZE | EERROR | EPLAYED | ELENGTH
    | EDATT | EDTSTAMP | EDFIN | EDID | EDATE | EPID | ETSTAMP | ESTATE

  /** The podcast states this core writes (`PSTATE_SEEN_ONCE`, `PSTATE_LAST_REFRESH_FAILED`). */
  datatype PodcastState = SeenOnce | LastRefreshFailed

  /** The episode states this core writes (`ESTATE_NEW`, `ESTATE_GONE`). */
  datatype EpisodeState = New | Gone

  /** A column value. The state constants of the provider are kept symbolic. */
  datatype Value = Null | Int(i: int) | Text(s: string) | PState(p: PodcastState) | EState(e: EpisodeState)

  type Row = map<Column, Value>

  datatype Table = Podcasts | Episodes

  datatype Store = Store(podcasts: map<int, Row>, episodes: map<int, Row>)

  /** One call into the provider that returned normally. */
  datatype Write =
    | Update(table: Table, id: int, values: Row)
    | Insert(table: Table, id: int, values: Row)
    | Delete(table: Table, id: int)
  {
    function Target(): Table
    {
      match this
      case Update(t, _, _) => t
      case Insert(t, _, _) => t
      case Delete(t, _) => t
    }
  }

  function RowsOf(st: Store, t: Table): map<int, Row>
  {
    match t
    case Podcasts => st.podcasts
    case Episodes => st.episodes
  }

  /** The number of rows a call affects, as the provider reports it. */
  function Affected(st: Store, w: Write): (n: nat)
    ensures n <= 1
    ensures w.Update? || w.Delete? ==> (n == 1 <==> w.id in RowsOf(st, w.Target()))
    ensures w.Insert? ==> (n == 1 <==> w.id !in RowsOf(st, w.Target()))
  {
    var present := w.id in RowsOf(st, w.Target());
    if w.Insert? then (if present then 0 else 1) else (if present then 1 else 0)
  }

  /**
   * The effect of one call on its table: an update merges the values into
   * the row with that id (if any), an insert adds a row under a fresh id (a
   * clash with an existing id is refused), a delete removes the row.
   */
  function ApplyRows(rows: map<int, Row>, w: Write): (r: map<int, Row>)
    ensures w.Update? ==> r.Keys == rows.Keys
    ensures w.Insert? ==> r.Keys == rows.Keys + {w.id}
    ensures w.Delete? ==> r.Keys == rows.Keys - {w.id}
    ensures forall k :: k in rows && k != w.id ==> r[k] == rows[k]
  {
    match w
    case Update(_, id, values) => if id in rows then rows[id := rows[id] + values] else rows
    case Insert(_, id, values) => if id in rows then rows else rows[id := values]
    case Delete(_, id) => rows - {id}
  }

  /** The effect of one call: its table changes as `ApplyRows` says, the other table not at all. */
  function Apply(st: Store, w: Write): (r: Store)
    ensures w.Target() == Podcasts ==> r == Store(ApplyRows(st.podcasts, w), st.episodes)
    ensures w.Target() == Episodes ==> r == Store(st.podcasts, ApplyRows(st.episodes, w))
  {
    match w.Target()
    case Podcasts => st.(podcasts := ApplyRows(st.podcasts, w))
    case Episodes => st.(episodes := ApplyRows(st.episodes, w))
  }

  /** `Cursor.getLong`: an integer column's value, 0 for NULL or a column that holds no integer. */
  function LongOf(row: Row, c: Column): int
  {
    if c in row && row[c].Int? then row[c].i else 0
  }

  /** The ids of the episode rows present in `after` but not in `before` whose state is NEW. */
  function NewEpisodeIds(before: Store, after: Store): set<int>
  {
    set k | k in after.episodes && k !in before.episodes
                && ESTATE in after.episodes[k] && after.episodes[k][ESTATE] == EState(New)
  }
}

=== FILE: sync_properties.dfy ===
/**
 * Properties of a whole `SyncWorker.run`: what a failure leaves behind, what
 * a success commits and in which order, what re-syncing an unchanged feed
 * does, and why the GONE cleanup that follows a sync cannot delete an
 * episode the sync has just seen.
 */
module SyncProperties {
  import opened JavaLang
  import opened Ids
  import opened Store
  import opened Episodes
  import opened SyncWorker
  import PodcastHelper

  /** The update `updateFeed` issues. */
  function FeedWrite(cfg: Config, id: int, link: string, feed: Feed): Write
  {
    Update(Podcasts, id, FeedValues(cfg, link, feed))
  }

  /** The final update of a run. */
  function CommitWrite(cfg: Config, id: int, syncTs: Int64): Write
  {
    Update(Podcasts, id, CommitValues(cfg, syncTs))
  }

  /**
   * A fetch or parse failure writes nothing but the error: episodes and the
   * podcast's timestamp are untouched, and the signal follows the exception's class.
   */
  lemma RunFetchFailure(cfg: Config, id: int, link: string, mode: RefreshMode, store: Store, env: SyncEnv)
    requires EnvFits(env) && env.fetch.FetchFailed?
    ensures var r := Run(cfg, id, link, mode, store, env);
            var e := env.fetch.e;
      && r.outcome == Classify(e, link)
      && r.st.store.episodes == store.episodes
      && r.st.log == (if env.errorWriteFails then [] else [ErrorWrite(id, e)])
      && (id in store.podcasts && !env.errorWriteFails ==>
            r.st.store.podcasts == store.podcasts[id := store.podcasts[id] + ErrorWrite(id, e).values]
            && r.st.store.podcasts[id][PERROR] == Text(ErrorMessage(e))
            && r.st.store.podcasts[id][PSTATE] == PState(LastRefreshFailed)
            && (PTSTAMP in r.st.store.podcasts[id] <==> PTSTAMP in store.podcasts[id])
            && (PTSTAMP in store.podcasts[id] ==> r.st.store.podcasts[id][PTSTAMP] == store.podcasts[id][PTSTAMP]))
      && (id !in store.podcasts || env.errorWriteFails ==> r.st.store == store)
  {
  }

  /** A successful run went through every stage: the feed update, the item pass and the commit. */
  lemma RunSuccessStages(cfg: Config, id: int, link: string, mode: RefreshMode, store: Store, env: SyncEnv)
    returns (st1: State, st2: State, n: int)
    requires EnvFits(env)
    requires Run(cfg, id, link, mode, store, env).outcome.Success?
    ensures env.fetch.Parsed?
    ensures UpdateFeed(cfg, State(store, []), id, link, env.fetch.feed, env.feedUpdateFault) == Continue(st1)
    ensures SyncItems(cfg, st1, env.fetch.feed.items, env.items, id, mode, env.syncTs, 0) == Passed(st2, n)
    ensures Commit(cfg, st2, id, env.syncTs, env.commitFault) == Continue(Run(cfg, id, link, mode, store, env).st)
    ensures Run(cfg, id, link, mode, store, env).outcome == Success(env.fetch.feed.title, n)
  {
    var feed := env.fetch.feed;
    st1 := UpdateFeed(cfg, State(store, []), id, link, feed, env.feedUpdateFault).st;
    var pass := SyncItems(cfg, st1, feed.items, env.items, id, mode, env.syncTs, 0);
    st2, n := pass.st, if pass.Passed? then pass.newCount else 0;
  }

  /**
   * The converse: when the feed update finds the podcast row and nothing is
   * thrown at it or at the commit, the run succeeds exactly when the item
   * loop runs to its end, with the feed's title and the loop's count; and
   * the loop does run to its end when every per-item fault is a RemoteException.
   */
  lemma RunSucceedsWhenStagesPass(cfg: Config, id: int, link: string, mode: RefreshMode, store: Store, env: SyncEnv)
    requires EnvFits(env) && env.fetch.Parsed?
    requires env.feedUpdateFault.None? && id in store.podcasts && env.commitFault.None?
    ensures var feed := env.fetch.feed;
      var pass := SyncItems(cfg, Call(State(store, []), FeedWrite(cfg, id, link, feed)), feed.items, env.items,
                            id, mode, env.syncTs, 0);
      var r := Run(cfg, id, link, mode, store, env);
      && (r.outcome.Success? <==> pass.Passed?)
      && (pass.Passed? ==> r.outcome == Success(feed.title, pass.newCount))
      && ((forall i :: 0 <= i < |env.items| ==> OnlyRemoteFaults(env.items[i])) ==> pass.Passed?)
  {
    var feed := env.fetch.feed;
    var st1 := Call(State(store, []), FeedWrite(cfg, id, link, feed));
    assert UpdateFeed(cfg, State(store, []), id, link, feed, env.feedUpdateFault) == Continue(st1);
    if forall i :: 0 <= i < |env.items| ==> OnlyRemoteFaults(env.items[i]) {
      SyncItemsPassesWithoutEscapes(cfg, st1, feed.items, env.items, id, mode, env.syncTs, 0);
    }
  }

  /**
   * A successful run leaves the podcast row with the feed's data and then
   * the commit: state SEEN_ONCE, refresh mode back to ALL, timestamp `syncTs`.
   * Nothing else in the podcast table changes.
   */
  lemma RunSuccessCommits(cfg: Config, id: int, link: string, mode: RefreshMode, store: Store, env: SyncEnv)
    requires EnvFits(env)
    requires Run(cfg, id, link, mode, store, env).outcome.Success?
    ensures var r := Run(cfg, id, link, mode, store, env);
      && env.fetch.Parsed? && id in store.podcasts
      && r.outcome.title == env.fetch.feed.title
      && r.st.store.podcasts
         == store.podcasts[id := store.podcasts[id] + FeedValues(cfg, link, env.fetch.feed) + CommitValues(cfg, env.syncTs)]
      && r.st.store.podcasts[id][PTSTAMP] == Int(env.syncTs)
      && r.st.store.podcasts[id][PSTATE] == PState(SeenOnce)
      && r.st.store.podcasts[id][PRMODE] == Int(cfg.allModeOrdinal)
  {
    var st1, st2, n := RunSuccessStages(cfg, id, link, mode, store, env);
    var row := store.podcasts[id] + FeedValues(cfg, link, env.fetch.feed);
    assert st2.store.podcasts == st1.store.podcasts == store.podcasts[id := row];
    CommitWins(cfg, row, env.syncTs);
  }

  /** The commit's columns override whatever the row held before. */
  lemma CommitWins(cfg: Config, row: Row, syncTs: Int64)
    ensures var r := row + CommitValues(cfg, syncTs);
      && PTSTAMP in r && r[PTSTAMP] == Int(syncTs)
      && PSTATE in r && r[PSTATE] == PState(SeenOnce)
      && PRMODE in r && r[PRMODE] == Int(cfg.allModeOrdinal)
  {
  }

  /**
   * The calls of a successful run come in order: first the podcast update
   * that zeroes the timestamp, last the commit of `syncTs`, and between them
   * only episode calls.
   */
  lemma RunSuccessWriteOrder(cfg: Config, id: int, link: string, mode: RefreshMode, store: Store, env: SyncEnv)
    requires EnvFits(env)
    requires Run(cfg, id, link, mode, store, env).outcome.Success?
    ensures var log := Run(cfg, id, link, mode, store, env).st.log;
      && env.fetch.Parsed?
      && |log| >= 2
      && log[0] == FeedWrite(cfg, id, link, env.fetch.feed)
      && log[0].values[PTSTAMP] == Int(0)
      && log[|log| - 1] == CommitWrite(cfg, id, env.syncTs)
      && log[|log| - 1].values[PTSTAMP] == Int(env.syncTs)
      && (forall i :: 0 < i < |log| - 1 ==> log[i].Target() == Episodes)
  {
    var st1, st2, n := RunSuccessStages(cfg, id, link, mode, store, env);
    var st3 := Run(cfg, id, link, mode, store, env).st;
    var fw := FeedWrite(cfg, id, link, env.fetch.feed);
    var cw := CommitWrite(cfg, id, env.syncTs);
    assert st1.log == [fw];
    EpisodeLogHasOnePodcastWrite(st1, st2, fw);
    assert st3.log == st2.log + [cw];
    forall i | 0 < i < |st3.log| - 1
      ensures st3.log[i].Target() == Episodes
    {
      assert st3.log[i] == st2.log[i];
    }
  }

  /**
   * The count a successful run reports covers the episode rows it inserted
   * as NEW, and is their number when the provider refused no insert; it is
   * within the refresh mode's budget and the number of items, and no episode
   * row disappears.
   */
  lemma RunSuccessCount(cfg: Config, id: int, link: string, mode: RefreshMode, store: Store, env: SyncEnv)
    requires EnvFits(env)
    requires Run(cfg, id, link, mode, store, env).outcome.Success?
    ensures var r := Run(cfg, id, link, mode, store, env);
      && env.fetch.Parsed?
      && store.episodes.Keys <= r.st.store.episodes.Keys
      && r.outcome.newEpisodes >= |NewEpisodeIds(store, r.st.store)|
      && (NoRefusal(env.items) ==> r.outcome.newEpisodes == |NewEpisodeIds(store, r.st.store)|)
      && 0 <= r.outcome.newEpisodes <= |env.fetch.feed.items|
      && (r.outcome.newEpisodes <= mode.count || r.outcome.newEpisodes == 0)
  {
    var st1, st2, n := RunSuccessStages(cfg, id, link, mode, store, env);
    var st3 := Run(cfg, id, link, mode, store, env).st;
    assert st1.store.episodes == store.episodes;
    assert st3.store.episodes == st2.store.episodes;
    assert NewEpisodeIds(store, st3.store) == NewEpisodeIds(st1.store, st2.store);
  }

  /**
   * Where a failed run stopped: the state `st` at the throw and the
   * exception. By then the podcast row holds either its old timestamp or 0,
   * and the only podcast call issued was the feed update.
   */
  lemma RunFailureStage(cfg: Config, id: int, link: string, mode: RefreshMode, store: Store, env: SyncEnv)
    returns (st: State, e: Exception)
    requires EnvFits(env)
    requires !Run(cfg, id, link, mode, store, env).outcome.Success?
    ensures Run(cfg, id, link, mode, store, env) == Fail(st, id, link, e, env)
    ensures st.store.podcasts.Keys == store.podcasts.Keys
    ensures id in store.podcasts ==>
      st.store.podcasts[id] == store.podcasts[id]
      || (env.fetch.Parsed? && st.store.podcasts[id] == store.podcasts[id] + FeedValues(cfg, link, env.fetch.feed))
    ensures forall i :: 0 <= i < |st.log| && st.log[i].Target() == Podcasts ==>
      env.fetch.Parsed? && st.log[i] == FeedWrite(cfg, id, link, env.fetch.feed)
  {
    var st0 := State(store, []);
    if env.fetch.FetchFailed? {
      st, e := st0, env.fetch.e;
      return;
    }
    var feed := env.fetch.feed;
    var fw := FeedWrite(cfg, id, link, feed);
    match UpdateFeed(cfg, st0, id, link, feed, env.feedUpdateFault)
    case Abort(st1, e1) =>
      st, e := st1, e1;
    case Continue(st1) =>
      assert st1.log == [fw];
      match SyncItems(cfg, st1, feed.items, env.items, id, mode, env.syncTs, 0)
      case PassThrew(st2, e2) =>
        st, e := st2, e2;
        EpisodeLogHasOnePodcastWrite(st1, st2, fw);
      case Passed(st2, n) =>
        EpisodeLogHasOnePodcastWrite(st1, st2, fw);
        var c := Commit(cfg, st2, id, env.syncTs, env.commitFault);
        assert c.Abort?;
        st, e := c.st, c.e;
        assert st.store == st2.store;
        assert st.log == st2.log;
  }

  /**
   * A failed run: the outcome is the class of some exception, whose message
   * and the failed state are the last thing written to the podcast row
   * (unless that write itself failed); the podcast's timestamp is left as it
   * was or zeroed, never committed.
   */
  lemma RunFailure(cfg: Config, id: int, link: string, mode: RefreshMode, store: Store, env: SyncEnv)
    requires EnvFits(env)
    requires !Run(cfg, id, link, mode, store, env).outcome.Success?
    ensures var r := Run(cfg, id, link, mode, store, env);
      exists e ::
      && r.outcome == Classify(e, link)
      && (!env.errorWriteFails ==> |r.st.log| > 0 && r.st.log[|r.st.log| - 1] == ErrorWrite(id, e))
      && (forall i :: 0 <= i < |r.st.log| && r.st.log[i].Target() == Podcasts ==>
            r.st.log[i] == ErrorWrite(id, e) || (env.fetch.Parsed? && r.st.log[i] == FeedWrite(cfg, id, link, env.fetch.feed)))
      && (id in store.podcasts ==> FailedRowRecorded(store.podcasts[id], r.st.store, id, e, env.errorWriteFails))
  {
    var st, e := RunFailureStage(cfg, id, link, mode, store, env);
    FailRecords(cfg, id, link, store, env, st, e);
  }

  /**
   * Which exception a failed run signals, stage by stage: a fault of the
   * feed update; the RemoteException for a podcast row the update misses;
   * the first item fault that escapes the loop, which is never a
   * RemoteException and so is signalled as a parse or I/O error; a fault of
   * the commit. (A failed fetch is `RunFetchFailure`.)
   */
  lemma RunFailureNamesException(cfg: Config, id: int, link: string, mode: RefreshMode, store: Store, env: SyncEnv)
    requires EnvFits(env) && env.fetch.Parsed?
    ensures var feed := env.fetch.feed;
      var r := Run(cfg, id, link, mode, store, env);
      var st1 := Call(State(store, []), FeedWrite(cfg, id, link, feed));
      var pass := SyncItems(cfg, st1, feed.items, env.items, id, mode, env.syncTs, 0);
      && (env.feedUpdateFault.Some? ==> r.outcome == Classify(env.feedUpdateFault.value, link))
      && (env.feedUpdateFault.None? && id !in store.podcasts ==> r.outcome == DBError(link))
      && (env.feedUpdateFault.None? && id in store.podcasts && pass.PassThrew? ==>
            && r.outcome == Classify(pass.e, link)
            && (r.outcome.ParseError? || r.outcome.IOError?)
            && exists i :: EscapesAt(cfg, st1, feed.items, env.items, id, mode, env.syncTs, 0, pass.e, i))
      && (env.feedUpdateFault.None? && id in store.podcasts && pass.Passed? && env.commitFault.Some? ==>
            r.outcome == Classify(env.commitFault.value, link))
  {
    var feed := env.fetch.feed;
    var st1 := Call(State(store, []), FeedWrite(cfg, id, link, feed));
    SyncItemsEscapeComesFromItem(cfg, st1, feed.items, env.items, id, mode, env.syncTs, 0);
    if env.feedUpdateFault.None? && id in store.podcasts {
      assert UpdateFeed(cfg, State(store, []), id, link, feed, env.feedUpdateFault) == Continue(st1);
    }
  }

  /**
   * A run that stops before the item loop (the feed cannot be fetched, or
   * the podcast row cannot be updated) fails without any episode call:
   * every logged call is a podcast write and the episodes are as they were.
   */
  lemma RunStoppedBeforeItemsSparesEpisodes(cfg: Config, id: int, link: string, mode: RefreshMode, store: Store, env: SyncEnv)
    requires EnvFits(env)
    requires env.fetch.FetchFailed? || env.feedUpdateFault.Some? || id !in store.podcasts
    ensures var r := Run(cfg, id, link, mode, store, env);
      && !r.outcome.Success?
      && r.st.store.episodes == store.episodes
      && forall i :: 0 <= i < |r.st.log| ==> r.st.log[i].Target() == Podcasts
  {
  }

  /** Recording the exception `e` that stopped a run at state `st`. */
  lemma FailRecords(cfg: Config, id: int, link: string, store: Store, env: SyncEnv, st: State, e: Exception)
    requires st.store.podcasts.Keys == store.podcasts.Keys
    requires id in store.podcasts ==>
      st.store.podcasts[id] == store.podcasts[id]
      || (env.fetch.Parsed? && st.store.podcasts[id] == store.podcasts[id] + FeedValues(cfg, link, env.fetch.feed))
    requires forall i :: 0 <= i < |st.log| && st.log[i].Target() == Podcasts ==>
      env.fetch.Parsed? && st.log[i] == FeedWrite(cfg, id, link, env.fetch.feed)
    ensures var r := Fail(st, id, link, e, env);
      && r.outcome == Classify(e, link)
      && (!env.errorWriteFails ==> |r.st.log| > 0 && r.st.log[|r.st.log| - 1] == ErrorWrite(id, e))
      && (forall i :: 0 <= i < |r.st.log| && r.st.log[i].Target() == Podcasts ==>
            r.st.log[i] == ErrorWrite(id, e) || (env.fetch.Parsed? && r.st.log[i] == FeedWrite(cfg, id, link, env.fetch.feed)))
      && (id in store.podcasts ==> FailedRowRecorded(store.podcasts[id], r.st.store, id, e, env.errorWriteFails))
  {
    var r := Fail(st, id, link, e, env);
    forall i | 0 <= i < |r.st.log| && r.st.log[i].Target() == Podcasts
      ensures r.st.log[i] == ErrorWrite(id, e) || (env.fetch.Parsed? && r.st.log[i] == FeedWrite(cfg, id, link, env.fetch.feed))
    {
      if i < |st.log| {
        assert r.st.log[i] == st.log[i];
      }
    }
    if id in store.podcasts && !env.errorWriteFails {
      var row := st.store.podcasts[id] + ErrorWrite(id, e).values;
      assert r.st.store.podcasts[id] == row;
    }
  }

  /**
   * The podcast row after a failure: still there, carrying the error
   * message and the failed state unless recording them failed, and with
   * its old timestamp or 0.
   */
  ghost predicate FailedRowRecorded(before: Row, after: Store, id: int, e: Exception, errorWriteFails: bool)
  {
    && id in after.podcasts
    && (!errorWriteFails ==>
          PERROR in after.podcasts[id] && PSTATE in after.podcasts[id]
          && after.podcasts[id][PERROR] == Text(ErrorMessage(e))
          && after.podcasts[id][PSTATE] == PState(LastRefreshFailed))
    && (PTSTAMP in after.podcasts[id] ==>
          after.podcasts[id][PTSTAMP] == Int(0)
          || (PTSTAMP in before && after.podcasts[id][PTSTAMP] == before[PTSTAMP]))
  }

  /** After the feed update, an item pass adds no podcast calls. */
  lemma EpisodeLogHasOnePodcastWrite(st1: State, st2: State, fw: Write)
    requires st1.log == [fw] && EpisodePass(st1, st2)
    ensures |st2.log| >= 1 && st2.log[0] == fw
    ensures forall i :: 0 <= i < |st2.log| && st2.log[i].Target() == Podcasts ==> st2.log[i] == fw
  {
    assert st2.log[..1] == [fw];
    assert st2.log[0] == st2.log[..1][0];
  }

  /**
   * Re-syncing a feed whose every audio URL is stored already inserts no
   * episode, whatever else happens, and a success reports 0 new episodes.
   */
  lemma ResyncInsertsNothing(cfg: Config, id: int, link: string, mode: RefreshMode, store: Store, env: SyncEnv)
    requires EnvFits(env) && env.fetch.Parsed?
    requires forall i :: 0 <= i < |env.fetch.feed.items| && ResolveAudio(env.fetch.feed.items[i]).Some? ==>
      GenerateId(ResolveAudio(env.fetch.feed.items[i]).value.link) in store.episodes
    ensures var r := Run(cfg, id, link, mode, store, env);
      && OnlyRestamped(store, r.st.store)
      && (r.outcome.Success? ==> r.outcome.newEpisodes == 0)
  {
    var feed := env.fetch.feed;
    match UpdateFeed(cfg, State(store, []), id, link, feed, env.feedUpdateFault)
    case Abort(st1, e) =>
    case Continue(st1) =>
      assert st1.store.episodes == store.episodes;
      SyncItemsAllKnown(cfg, st1, feed.items, env.items, id, mode, env.syncTs, 0);
      RunAfterFeedUpdate(cfg, id, link, mode, store, env, st1);
  }

  /**
   * Once the feed update went through, the run ends with the episode table
   * the item loop left, and a success reports the loop's count.
   */
  lemma RunAfterFeedUpdate(cfg: Config, id: int, link: string, mode: RefreshMode, store: Store, env: SyncEnv, st1: State)
    requires EnvFits(env) && env.fetch.Parsed?
    requires UpdateFeed(cfg, State(store, []), id, link, env.fetch.feed, env.feedUpdateFault) == Continue(st1)
    ensures Run(cfg, id, link, mode, store, env).st.store.episodes
         == SyncItems(cfg, st1, env.fetch.feed.items, env.items, id, mode, env.syncTs, 0).st.store.episodes
    ensures Run(cfg, id, link, mode, store, env).outcome.Success? ==>
      var pass := SyncItems(cfg, st1, env.fetch.feed.items, env.items, id, mode, env.syncTs, 0);
      pass.Passed? && Run(cfg, id, link, mode, store, env).outcome.newEpisodes == pass.newCount
  {
  }

  /**
   * Right after a successful sync, and given a clock that does not run
   * backwards (every item timestamp at or after `syncTs`), marking one of
   * this podcast's episodes gone deletes it exactly when it was last seen
   * before the sync; so no episode the sync inserted or saw is deleted.
   */
  lemma CleanupAfterSync(cfg: Config, id: int, link: string, mode: RefreshMode, store: Store, env: SyncEnv, k: int)
    requires EnvFits(env)
    requires Run(cfg, id, link, mode, store, env).outcome.Success?
    requires forall i :: 0 <= i < |env.items| ==> env.items[i].timestamp >= env.syncTs
    requires var after := Run(cfg, id, link, mode, store, env).st.store;
      k in after.episodes && PodcastHelper.NotGone(after.episodes[k]) && LongOf(after.episodes[k], EPID) == id
    ensures var after := Run(cfg, id, link, mode, store, env).st.store;
      && (k !in PodcastHelper.MarkEpisodeGone(after, k).0.episodes <==> LongOf(after.episodes[k], ETSTAMP) < env.syncTs)
      && (k !in store.episodes || after.episodes[k] != store.episodes[k] ==>
            k in PodcastHelper.MarkEpisodeGone(after, k).0.episodes)
  {
    var st1, st2, n := RunSuccessStages(cfg, id, link, mode, store, env);
    RunSuccessCommits(cfg, id, link, mode, store, env);
    var after := Run(cfg, id, link, mode, store, env).st.store;
    SyncItemsStamps(cfg, st1, env.fetch.feed.items, env.items, id, mode, env.syncTs, 0, env.syncTs);
    assert st1.store.episodes == store.episodes;
    assert after.episodes == st2.store.episodes;
    assert LongOf(after.podcasts[id], PTSTAMP) == env.syncTs;
  }
}

=== FILE: sync_worker.dfy ===
/**
 * `SyncWorker`: one refresh of one subscription. The network fetch and the
 * feed parser, the clock, the size probe and the faults of the content
 * provider are inputs (`SyncEnv`, `ItemEnv`); what remains is a fold over
 * the feed's items that threads the store and records every provider call
 * that returned normally.
 */
module SyncWorker {
  import opened JavaLang
  import opened Ids
  import opened Store
  import opened Episodes

  /** Feed parsing stops after this many items. */
  const MAX_EPISODES_TO_PARSE: nat := 1000

  /** Known sizes below this many bytes are treated as placeholders and probed. */
  const SIZE_PROBE_THRESHOLD: int := 10 * 1024

  /** Constants and collaborators that live outside the two modelled classes. */
  datatype Config = Config(
    podcastEpoch: Int64,              // PODCAST_EPOCH, built from the local-time calendar
    shortDescrLength: nat,            // Provider.SHORT_DESCR_LENGTH
    allModeOrdinal: int,              // Provider.RefreshMode.ALL.ordinal()
    noTitle: string,                  // R.string.episode_no_title
    simplifyHtml: string -> string,   // simplifyHTML
    plainText: string -> string)      // Html.fromHtml(html).toString()

  /** The subscription's refresh mode: how many episodes may be marked new, and how old they may be. */
  datatype RefreshMode = RefreshMode(count: int, maxAge: Int64)

  /** The content-length probe of an audio URL. */
  datatype Probe =
    | ContentLength(length: int)   // getContentLength(), -1 when the server does not say
    | MalformedUrl                 // new URL(audioLink) threw MalformedURLException
    | ProbeFailed                  // the connection threw another IOException

  /** What the world answers while one item is processed. */
  datatype ItemEnv = ItemEnv(
    timestamp: Int64,                 // new Date() taken for the item
    touchFault: Option<Exception>,    // thrown by the ETSTAMP update, if anything
    probe: Probe,
    insertFault: Option<Exception>,   // thrown by the episode insert, if anything
    insertRefused: bool)              // the insert returned null: no row, though the item counts as inserted

  /** The store together with the provider calls issued so far. */
  datatype State = State(store: Store, log: seq<Write>)

  /** Issue one provider call that returns normally. */
  function Call(st: State, w: Write): (r: State)
    ensures r.store == Apply(st.store, w)
    ensures r.log == st.log + [w]
  {
    State(Apply(st.store, w), st.log + [w])
  }

  // ---------------------------------------------------------------------------
  // One item

  /** The outcome of `tryInsertEpisode`: whether it inserted, or the exception it let through. */
  datatype Attempt = Attempted(st: State, inserted: bool) | AttemptThrew(st: State, e: Exception)

  /** A missing size, or one under 10 KiB, is probed. */
  predicate NeedsProbe(size: Option<int>)
  {
    size.None? || size.value < SIZE_PROBE_THRESHOLD
  }

  /** The size stored with a new episode, or None when a malformed URL makes the item be skipped. */
  function ProbedSize(known: Option<int>, probe: Probe): (r: Option<Option<int>>)
    ensures !NeedsProbe(known) ==> r == Some(known)
    ensures NeedsProbe(known) ==>
      match probe
      case ContentLength(n) => r == Some(Some(n))
      case MalformedUrl => r.None?
      case ProbeFailed => r == Some(known)
  {
    if !NeedsProbe(known) then Some(known)
    else match probe
      case ContentLength(n) => Some(Some(n))
      case MalformedUrl => None
      case ProbeFailed => Some(known)
  }

  function TextOrNull(s: Option<string>): Value
  {
    if s.Some? then Text(s.value) else Null
  }

  function IntOrNull(n: Option<int>): Value
  {
    if n.Some? then Int(n.value) else Null
  }

  /**
   * The columns of a new episode taken from its item and audio enclosure:
   * the title or the no-title placeholder, the links, the size, the
   * descriptions when the item has one, and no error, nothing played,
   * measured or downloaded yet.
   */
  function EpisodeContent(cfg: Config, item: Item, audioLink: string, size: Option<int>): (row: Row)
    ensures ENAME in row && row[ENAME] == Text(if item.title.Some? then item.title.value else cfg.noTitle)
    ensures EAURL in row && row[EAURL] == Text(audioLink)
    ensures EURL in row && row[EURL] == TextOrNull(item.link)
    ensures ESIZE in row && row[ESIZE] == IntOrNull(size)
    ensures EERROR in row && row[EERROR] == Null
    ensures forall c :: c in {EPLAYED, ELENGTH, EDATT, EDTSTAMP, EDFIN, EDID} ==> c in row && row[c] == Int(0)
    ensures (EDESCR in row <==> item.description.Some?) && (ESDESCR in row <==> item.description.Some?)
    ensures item.description.Some? ==>
      var simplified := cfg.simplifyHtml(item.description.value);
      && row[EDESCR] == Text(simplified)
      && row[ESDESCR] == Text(ShortDescription(cfg.plainText(simplified), cfg.shortDescrLength))
    ensures forall c :: c in {EDATE, EPID, ID, ETSTAMP, ESTATE} ==> c !in row
  {
    var base := map[
      ENAME := Text(if item.title.Some? then item.title.value else cfg.noTitle),
      EAURL := Text(audioLink),
      EURL := TextOrNull(item.link),
      ESIZE := IntOrNull(size),
      EERROR := Null,
      EPLAYED := Int(0),
      ELENGTH := Int(0),
      EDATT := Int(0),
      EDTSTAMP := Int(0),
      EDFIN := Int(0),
      EDID := Int(0)];
    if item.description.Some? then
      var simplified := cfg.simplifyHtml(item.description.value);
      base[EDESCR := Text(simplified)][ESDESCR := Text(ShortDescription(cfg.plainText(simplified), cfg.shortDescrLength))]
    else base
  }

  /**
   * The row `tryInsertEpisode` inserts for a new episode: its content, and
   * the id, subscription, corrected date, last-seen timestamp and state.
   */
  function EpisodeRow(cfg: Config, item: Item, audioLink: string, size: Option<int>,
                      subscriptionId: int, id: int, timestamp: Int64, markNew: bool): (row: Row)
    ensures ID in row && EPID in row && EAURL in row && ETSTAMP in row && ESTATE in row && EDATE in row && ESIZE in row
    ensures row[ID] == Int(id) && row[EPID] == Int(subscriptionId) && row[EAURL] == Text(audioLink)
    ensures row[ETSTAMP] == Int(timestamp)
    ensures row[ESTATE] == EState(if markNew then New else Gone)
    ensures row[EDATE] == Int(CorrectDate(item.pubDate, timestamp, cfg.podcastEpoch))
    ensures row[ESIZE] == IntOrNull(size)
    ensures (EDESCR in row <==> item.description.Some?) && (ESDESCR in row <==> item.description.Some?)
  {
    EpisodeContent(cfg, item, audioLink, size)
      [EDATE := Int(CorrectDate(item.pubDate, timestamp, cfg.podcastEpoch))]
      [EPID := Int(subscriptionId)]
      [ID := Int(id)]
      [ETSTAMP := Int(timestamp)]
      [ESTATE := EState(if markNew then New else Gone)]
  }

  /** The inserted row keeps every column of the episode's content. */
  lemma EpisodeRowKeepsContent(cfg: Config, item: Item, audioLink: string, size: Option<int>,
                               subscriptionId: int, id: int, timestamp: Int64, markNew: bool)
    ensures var row := EpisodeRow(cfg, item, audioLink, size, subscriptionId, id, timestamp, markNew);
      var content := EpisodeContent(cfg, item, audioLink, size);
      forall c :: c in content ==> c in row && row[c] == content[c]
  {
  }

  /** The update that refreshes an episode's last-seen timestamp. */
  function Touch(id: int, timestamp: Int64): (w: Write)
    ensures w.Update? && w.Target() == Episodes && w.id == id
    ensures w.values.Keys == {ETSTAMP} && w.values[ETSTAMP] == Int(timestamp)
  {
    Update(Episodes, id, map[ETSTAMP := Int(timestamp)])
  }

  /**
   * `updateEpisodeTimestamp`: it reports a hit exactly when the episode is
   * stored, and then changes only that row's ETSTAMP.
   */
  lemma TouchEffect(st: Store, id: int, timestamp: Int64)
    ensures Affected(st, Touch(id, timestamp)) > 0 <==> id in st.episodes
    ensures Apply(st, Touch(id, timestamp)).podcasts == st.podcasts
    ensures Apply(st, Touch(id, timestamp)).episodes
         == if id in st.episodes then st.episodes[id := st.episodes[id][ETSTAMP := Int(timestamp)]] else st.episodes
  {
    if id in st.episodes {
      var row := st.episodes[id];
      assert row + map[ETSTAMP := Int(timestamp)] == row[ETSTAMP := Int(timestamp)];
    }
  }

  /** Both sides of `catch (RemoteException)`: swallowed, anything else escapes. */
  function Caught(st: State, e: Exception): Attempt
  {
    if e.family == RemoteFamily then Attempted(st, false) else AttemptThrew(st, e)
  }

  /** The size a new episode is stored with when the probe did not make it be skipped. */
  function StoredSize(known: Option<int>, probe: Probe): Option<int>
  {
    var s := ProbedSize(known, probe);
    if s.Some? then s.value else known
  }

  /**
   * The second half of `tryInsertEpisode`, once the timestamp update found no
   * row: probe the size if needed, then insert the episode.
   */
  function InsertNewEpisode(cfg: Config, st: State, item: Item, src: AudioSource, subscriptionId: int, id: int,
                            markNew: bool, env: ItemEnv): (r: Attempt)
    ensures var ins := Insert(Episodes, id, EpisodeRow(cfg, item, src.link, StoredSize(src.size, env.probe),
                                                       subscriptionId, id, env.timestamp, markNew));
      && (r.Attempted? && r.inserted && !env.insertRefused ==> r.st == Call(st, ins))
      && (r.Attempted? && r.inserted && env.insertRefused ==> r.st == State(st.store, st.log + [ins]))
    ensures !(r.Attempted? && r.inserted) ==> r.st == st
    ensures r.Attempted? && r.inserted <==>
      !(NeedsProbe(src.size) && env.probe.MalformedUrl?) && env.insertFault.None?
    ensures NeedsProbe(src.size) && env.probe.MalformedUrl? ==> r == Attempted(st, false)
    ensures !(NeedsProbe(src.size) && env.probe.MalformedUrl?) && env.insertFault.Some? ==>
      if env.insertFault.value.family == RemoteFamily then r == Attempted(st, false)
      else r == AttemptThrew(st, env.insertFault.value)
  {
    match ProbedSize(src.size, env.probe)
    case None => Attempted(st, false)
    case Some(size) =>
      if env.insertFault.Some? then Caught(st, env.insertFault.value)
      else
        var ins := Insert(Episodes, id, EpisodeRow(cfg, item, src.link, size, subscriptionId, id, env.timestamp, markNew));
        // the provider's answer is not looked at: a refused insert still reports success
        if env.insertRefused then Attempted(State(st.store, st.log + [ins]), true)
        else Attempted(Call(st, ins), true)
  }

  /**
   * `tryInsertEpisode(item, subscriptionId, provider, markNew)`. Items without
   * an audio source are skipped untouched. An episode whose id is already
   * stored only has its timestamp refreshed. A new one is probed for its size
   * when needed and inserted, NEW or GONE by `markNew`.
   */
  function TryInsertEpisode(cfg: Config, st: State, item: Item, subscriptionId: int, markNew: bool,
                            env: ItemEnv): (r: Attempt)
    ensures ResolveAudio(item).None? ==> r == Attempted(st, false)
    ensures ResolveAudio(item).Some? && env.touchFault.Some? ==>
      if env.touchFault.value.family == RemoteFamily then r == Attempted(st, false)
      else r == AttemptThrew(st, env.touchFault.value)
    ensures ResolveAudio(item).Some? && env.touchFault.None? ==>
      var src := ResolveAudio(item).value;
      var id := GenerateId(src.link);
      var st1 := Call(st, Touch(id, env.timestamp));
      if id in st.store.episodes then r == Attempted(st1, false)
      else r == InsertNewEpisode(cfg, st1, item, src, subscriptionId, id, markNew, env)
  {
    match ResolveAudio(item)
    case None => Attempted(st, false)
    case Some(src) =>
      var id := GenerateId(src.link);
      if env.touchFault.Some? then Caught(st, env.touchFault.value)
      else
        var st1 := Call(st, Touch(id, env.timestamp));
        if Affected(st.store, Touch(id, env.timestamp)) > 0 then Attempted(st1, false)
        else InsertNewEpisode(cfg, st1, item, src, subscriptionId, id, markNew, env)
  }

  /** An episode already in the store is never inserted again: at most its timestamp changes. */
  lemma {:induction false} DuplicateOnlyTouches(cfg: Config, st: State, item: Item, subscriptionId: int,
                                                markNew: bool, env: ItemEnv)
    requires ResolveAudio(item).Some? && GenerateId(ResolveAudio(item).value.link) in st.store.episodes
    ensures var r := TryInsertEpisode(cfg, st, item, subscriptionId, markNew, env);
      var id := GenerateId(ResolveAudio(item).value.link);
      && !(r.Attempted? && r.inserted)
      && r.st.store.episodes.Keys == st.store.episodes.Keys
      && (env.touchFault.None? ==>
            r == Attempted(Call(st, Touch(id, env.timestamp)), false)
            && r.st.store.episodes == st.store.episodes[id := st.store.episodes[id][ETSTAMP := Int(env.timestamp)]])
  {
    var id := GenerateId(ResolveAudio(item).value.link);
    var row := st.store.episodes[id];
    assert row + map[ETSTAMP := Int(env.timestamp)] == row[ETSTAMP := Int(env.timestamp)];
  }

  /** Above the threshold the probe is never consulted: its answer cannot change the result. */
  lemma {:induction false} ProbeOnlyBelowThreshold(cfg: Config, st: State, item: Item, subscriptionId: int,
                                                   markNew: bool, env: ItemEnv, other: Probe)
    requires ResolveAudio(item).Some? && !NeedsProbe(ResolveAudio(item).value.size)
    ensures TryInsertEpisode(cfg, st, item, subscriptionId, markNew, env)
         == TryInsertEpisode(cfg, st, item, subscriptionId, markNew, env.(probe := other))
  {
  }

  /**
   * A new episode is inserted with the size the probe reports, or with the
   * known size when no probe was needed or it failed with an IOException;
   * a malformed URL skips it after the timestamp update found nothing. An
   * insert the provider refuses is still reported, but leaves no row.
   */
  lemma {:induction false} NewEpisodeSize(cfg: Config, st: State, item: Item, subscriptionId: int,
                                          markNew: bool, env: ItemEnv)
    requires ResolveAudio(item).Some? && GenerateId(ResolveAudio(item).value.link) !in st.store.episodes
    requires env.touchFault.None? && env.insertFault.None?
    ensures var r := TryInsertEpisode(cfg, st, item, subscriptionId, markNew, env);
      var src := ResolveAudio(item).value;
      var id := GenerateId(src.link);
      && r.Attempted?
      && (r.inserted <==> !(NeedsProbe(src.size) && env.probe.MalformedUrl?))
      && (r.inserted && env.insertRefused ==> id !in r.st.store.episodes)
      && (r.inserted && !env.insertRefused ==>
            r.st.store.episodes[id][ESIZE]
            == IntOrNull(if NeedsProbe(src.size) && env.probe.ContentLength? then Some(env.probe.length) else src.size))
  {
    var src := ResolveAudio(item).value;
    var id := GenerateId(src.link);
    assert Affected(st.store, Touch(id, env.timestamp)) == 0;
  }

  // ---------------------------------------------------------------------------
  // The item loop

  /**
   * Whether an item is to be marked new: the budget is not used up and, when
   * the item has a publication date, its age (a `long` subtraction) is under
   * the maximum. The raw date is used, not the corrected one.
   */
  predicate MarkNew(newSoFar: int, pubDate: Option<Int64>, mode: RefreshMode, syncTs: Int64)
    ensures MarkNew(newSoFar, pubDate, mode, syncTs) ==> newSoFar < mode.count
    ensures pubDate.None? ==> (MarkNew(newSoFar, pubDate, mode, syncTs) <==> newSoFar < mode.count)
  {
    newSoFar < mode.count && (pubDate.None? || SubInt64(syncTs, pubDate.value) < mode.maxAge)
  }

  /** Once the budget is used up nothing more is marked new. */
  lemma MarkNewNeedsBudget(newSoFar: int, pubDate: Option<Int64>, mode: RefreshMode, syncTs: Int64)
    requires newSoFar >= mode.count
    ensures !MarkNew(newSoFar, pubDate, mode, syncTs)
  {
  }

  /**
   * A date in the future has a negative age and passes the age test, though
   * the stored date is corrected to the item's timestamp.
   */
  lemma FutureDatePassesAgeTest(newSoFar: int, date: Int64, mode: RefreshMode, syncTs: Int64)
    requires 0 <= syncTs <= date && mode.maxAge > 0 && newSoFar < mode.count
    ensures MarkNew(newSoFar, Some(date), mode, syncTs)
  {
  }

  /** Without overflow the age test is the plain comparison `syncTs - pubDate < maxAge`. */
  lemma MarkNewAgeWithoutOverflow(newSoFar: int, date: Int64, mode: RefreshMode, syncTs: Int64)
    requires -TWO63 <= syncTs - date < TWO63
    ensures MarkNew(newSoFar, Some(date), mode, syncTs) <==> newSoFar < mode.count && syncTs - date < mode.maxAge
  {
  }

  /**
   * A date so far in the past that the subtraction wraps around counts as
   * young: year -292 million and a sync in 2015 give a negative age.
   */
  lemma AncientDateWrapsToNew(mode: RefreshMode)
    requires mode.count > 0 && mode.maxAge > 0
    ensures MarkNew(0, Some(-0x7FFF_FFFF_FFFF_FFFF), mode, 1_420_070_400_000)
  {
    assert SubInt64(1_420_070_400_000, -0x7FFF_FFFF_FFFF_FFFF) < 0;
  }

  /** The outcome of the item loop: the number of episodes marked new, or the exception that escaped. */
  datatype Pass = Passed(st: State, newCount: int) | PassThrew(st: State, e: Exception)

  /** Episode rows present before keep their state; the podcast table is untouched; only episode calls are added. */
  ghost predicate EpisodePass(before: State, after: State)
  {
    && after.store.podcasts == before.store.podcasts
    && before.store.episodes.Keys <= after.store.episodes.Keys
    && (forall k :: k in before.store.episodes ==> SameState(before.store.episodes[k], after.store.episodes[k]))
    && |before.log| <= |after.log| && after.log[..|before.log|] == before.log
    && (forall i :: |before.log| <= i < |after.log| ==> after.log[i].Target() == Episodes)
  }

  /** Two rows agree on the episode state column. */
  ghost predicate SameState(a: Row, b: Row)
  {
    (ESTATE in a <==> ESTATE in b) && (ESTATE in a ==> a[ESTATE] == b[ESTATE])
  }

  lemma EpisodePassTransitive(s0: State, s1: State, s2: State)
    requires EpisodePass(s0, s1) && EpisodePass(s1, s2)
    ensures EpisodePass(s0, s2)
  {
    assert s2.log[..|s1.log|][..|s0.log|] == s2.log[..|s0.log|];
    forall i | |s0.log| <= i < |s2.log|
      ensures s2.log[i].Target() == Episodes
    {
      if i < |s1.log| {
        assert s2.log[i] == s2.log[..|s1.log|][i];
      }
    }
  }

  /** New-episode ids add up over consecutive passes. */
  lemma NewEpisodeIdsCompose(s0: State, s1: State, s2: State)
    requires EpisodePass(s0, s1) && EpisodePass(s1, s2)
    ensures NewEpisodeIds(s0.store, s2.store) == NewEpisodeIds(s0.store, s1.store) + NewEpisodeIds(s1.store, s2.store)
    ensures NewEpisodeIds(s0.store, s1.store) !! NewEpisodeIds(s1.store, s2.store)
  {
    var a, b, c := s0.store.episodes, s1.store.episodes, s2.store.episodes;
    forall k | k in NewEpisodeIds(s0.store, s2.store)
      ensures k in NewEpisodeIds(s0.store, s1.store) + NewEpisodeIds(s1.store, s2.store)
    {
      if k in b {
        assert SameState(b[k], c[k]);
      }
    }
    forall k | k in NewEpisodeIds(s0.store, s1.store)
      ensures k in NewEpisodeIds(s0.store, s2.store)
    {
      assert SameState(b[k], c[k]);
    }
  }

  /** An episode call that leaves every existing row's state alone extends the pass. */
  lemma EpisodeCallIsEpisodePass(st: State, w: Write)
    requires w.Target() == Episodes && (w.Update? || w.Insert?)
    requires forall k :: k in st.store.episodes ==>
      k in Call(st, w).store.episodes && SameState(st.store.episodes[k], Call(st, w).store.episodes[k])
    ensures EpisodePass(st, Call(st, w))
  {
    var r := Call(st, w);
    assert r.log[..|st.log|] == st.log;
  }

  /**
   * One item extends the pass, and adds a NEW id exactly when it was inserted
   * with `markNew` and the provider did not refuse the insert.
   */
  lemma {:induction false} TryInsertIsEpisodePass(cfg: Config, st: State, item: Item, subscriptionId: int,
                                                  markNew: bool, env: ItemEnv)
    ensures var r := TryInsertEpisode(cfg, st, item, subscriptionId, markNew, env);
      && EpisodePass(st, r.st)
      && (r.Attempted? ==>
            |NewEpisodeIds(st.store, r.st.store)| == if r.inserted && markNew && !env.insertRefused then 1 else 0)
  {
    var r := TryInsertEpisode(cfg, st, item, subscriptionId, markNew, env);
    if ResolveAudio(item).None? || env.touchFault.Some? {
      assert r.st == st;
      assert NewEpisodeIds(st.store, r.st.store) == {};
      assert r.st.log[..|st.log|] == st.log;
      return;
    }
    var src := ResolveAudio(item).value;
    var id := GenerateId(src.link);
    var touch := Touch(id, env.timestamp);
    var st1 := Call(st, touch);
    forall k | k in st.store.episodes
      ensures SameState(st.store.episodes[k], st1.store.episodes[k])
    {
      if k == id {
        assert st1.store.episodes[k] == st.store.episodes[k] + map[ETSTAMP := Int(env.timestamp)];
      }
    }
    EpisodeCallIsEpisodePass(st, touch);
    if id in st.store.episodes {
      assert r.st == st1;
      assert NewEpisodeIds(st.store, st1.store) == {};
      return;
    }
    assert st1.store == st.store;
    InsertNewEpisodeIsEpisodePass(cfg, st1, item, src, subscriptionId, id, markNew, env);
    EpisodePassTransitive(st, st1, r.st);
  }

  /** Inserting an absent episode id adds only an episode call, and that id as NEW exactly when its row says so. */
  lemma InsertIsEpisodePass(st: State, id: int, row: Row)
    requires id !in st.store.episodes
    ensures var after := Call(st, Insert(Episodes, id, row));
      && EpisodePass(st, after)
      && NewEpisodeIds(st.store, after.store) == if ESTATE in row && row[ESTATE] == EState(New) then {id} else {}
  {
    EpisodeCallIsEpisodePass(st, Insert(Episodes, id, row));
  }

  /** The insert of a new episode adds only episode calls, and one NEW id exactly when a kept insert had `markNew`. */
  lemma InsertNewEpisodeIsEpisodePass(cfg: Config, st: State, item: Item, src: AudioSource, subscriptionId: int,
                                      id: int, markNew: bool, env: ItemEnv)
    requires id !in st.store.episodes
    ensures var r := InsertNewEpisode(cfg, st, item, src, subscriptionId, id, markNew, env);
      && EpisodePass(st, r.st)
      && (r.Attempted? ==>
            |NewEpisodeIds(st.store, r.st.store)| == if r.inserted && markNew && !env.insertRefused then 1 else 0)
  {
    var r := InsertNewEpisode(cfg, st, item, src, subscriptionId, id, markNew, env);
    if r.Attempted? && r.inserted && env.insertRefused {
      assert r.st.store == st.store && r.st.log[..|st.log|] == st.log;
      assert NewEpisodeIds(st.store, r.st.store) == {};
    } else if r.Attempted? && r.inserted {
      var row := EpisodeRow(cfg, item, src.link, StoredSize(src.size, env.probe), subscriptionId, id, env.timestamp, markNew);
      assert r.st == Call(st, Insert(Episodes, id, row));
      InsertIsEpisodePass(st, id, row);
    } else {
      assert r.st == st;
      assert NewEpisodeIds(st.store, st.store) == {};
      assert r.st.log[..|st.log|] == st.log;
    }
  }

  /**
   * The item loop of `run`, from the item at hand on, with `newSoFar`
   * episodes marked new before it. The counter moves only on an insert made
   * with `markNew`, whether or not the provider kept the row, so the count
   * covers every NEW row added and equals their number when no insert is refused.
   */
  function SyncItems(cfg: Config, st: State, items: seq<Item>, envs: seq<ItemEnv>, subscriptionId: int,
                     mode: RefreshMode, syncTs: Int64, newSoFar: int): (r: Pass)
    requires |envs| == |items|
    ensures EpisodePass(st, r.st)
    ensures r.Passed? ==> newSoFar <= r.newCount <= newSoFar + |items|
    ensures r.Passed? && newSoFar <= mode.count ==> r.newCount <= mode.count
    ensures r.Passed? && newSoFar >= mode.count ==> r.newCount == newSoFar
    ensures r.Passed? ==> r.newCount - newSoFar >= |NewEpisodeIds(st.store, r.st.store)|
    ensures r.Passed? && NoRefusal(envs) ==> r.newCount - newSoFar == |NewEpisodeIds(st.store, r.st.store)|
    decreases |items|
  {
    if |items| == 0 then
      assert NewEpisodeIds(st.store, st.store) == {};
      Passed(st, newSoFar)
    else
      assert NoRefusal(envs) ==> NoRefusal(envs[1..]) && !envs[0].insertRefused by {
        if NoRefusal(envs) {
          assert forall i :: 0 <= i < |envs[1..]| ==> envs[1..][i] == envs[i + 1];
        }
      }
      var markNew := MarkNew(newSoFar, items[0].pubDate, mode, syncTs);
      TryInsertIsEpisodePass(cfg, st, items[0], subscriptionId, markNew, envs[0]);
      match TryInsertEpisode(cfg, st, items[0], subscriptionId, markNew, envs[0])
      case AttemptThrew(st1, e) => PassThrew(st1, e)
      case Attempted(st1, inserted) =>
        var next := if inserted && markNew then newSoFar + 1 else newSoFar;
        var r := SyncItems(cfg, st1, items[1..], envs[1..], subscriptionId, mode, syncTs, next);
        EpisodePassTransitive(st, st1, r.st);
        NewEpisodeIdsCompose(st, st1, r.st);
        r
  }

  /** No insert of the pass is refused by the provider. */
  predicate NoRefusal(envs: seq<ItemEnv>)
  {
    forall i :: 0 <= i < |envs| ==> !envs[i].insertRefused
  }

  /** Processing items whose audio ids are all stored already adds no episode row and counts nothing. */
  lemma {:induction false} SyncItemsAllKnown(cfg: Config, st: State, items: seq<Item>, envs: seq<ItemEnv>,
                                             subscriptionId: int, mode: RefreshMode, syncTs: Int64, newSoFar: int)
    requires |envs| == |items|
    requires forall i :: 0 <= i < |items| && ResolveAudio(items[i]).Some? ==>
      GenerateId(ResolveAudio(items[i]).value.link) in st.store.episodes
    ensures var r := SyncItems(cfg, st, items, envs, subscriptionId, mode, syncTs, newSoFar);
      OnlyRestamped(st.store, r.st.store) && (r.Passed? ==> r.newCount == newSoFar)
    decreases |items|
  {
    if |items| > 0 {
      var markNew := MarkNew(newSoFar, items[0].pubDate, mode, syncTs);
      var a := TryInsertEpisode(cfg, st, items[0], subscriptionId, markNew, envs[0]);
      if ResolveAudio(items[0]).Some? {
        DuplicateOnlyTouches(cfg, st, items[0], subscriptionId, markNew, envs[0]);
        if envs[0].touchFault.None? {
          var id := GenerateId(ResolveAudio(items[0]).value.link);
          RestampIsOnlyRestamped(st.store, a.st.store, id, envs[0].timestamp);
        }
      }
      assert OnlyRestamped(st.store, a.st.store);
      if a.Attempted? {
        assert !a.inserted;
        forall i | 0 <= i < |items[1..]| && ResolveAudio(items[1..][i]).Some?
          ensures GenerateId(ResolveAudio(items[1..][i]).value.link) in a.st.store.episodes
        {
          assert items[1..][i] == items[i + 1];
        }
        SyncItemsAllKnown(cfg, a.st, items[1..], envs[1..], subscriptionId, mode, syncTs, newSoFar);
        var r := SyncItems(cfg, a.st, items[1..], envs[1..], subscriptionId, mode, syncTs, newSoFar);
        OnlyRestampedTransitive(st.store, a.st.store, r.st.store);
      }
    }
  }

  /** Two episode rows agree on every column except the last-seen timestamp. */
  predicate SameButStamp(a: Row, b: Row)
  {
    a - {ETSTAMP} == b - {ETSTAMP}
  }

  /** The episode table keeps its ids, and every row changes at most in ETSTAMP. */
  ghost predicate OnlyRestamped(before: Store, after: Store)
  {
    && after.episodes.Keys == before.episodes.Keys
    && forall k :: k in before.episodes ==> SameButStamp(before.episodes[k], after.episodes[k])
  }

  lemma RestampIsOnlyRestamped(before: Store, after: Store, id: int, timestamp: Int64)
    requires id in before.episodes
    requires after.episodes == before.episodes[id := before.episodes[id][ETSTAMP := Int(timestamp)]]
    ensures OnlyRestamped(before, after)
  {
    var row := before.episodes[id];
    assert row[ETSTAMP := Int(timestamp)] - {ETSTAMP} == row - {ETSTAMP};
  }

  lemma OnlyRestampedTransitive(s0: Store, s1: Store, s2: Store)
    requires OnlyRestamped(s0, s1) && OnlyRestamped(s1, s2)
    ensures OnlyRestamped(s0, s2)
  {
  }

  /** Faults the item loop swallows: a RemoteException from the timestamp update or the insert. */
  predicate OnlyRemoteFaults(env: ItemEnv)
  {
    && (env.touchFault.Some? ==> env.touchFault.value.family == RemoteFamily)
    && (env.insertFault.Some? ==> env.insertFault.value.family == RemoteFamily)
  }

  /** When every per-item fault is a RemoteException, the item loop runs to the end. */
  lemma {:induction false} SyncItemsPassesWithoutEscapes(cfg: Config, st: State, items: seq<Item>, envs: seq<ItemEnv>,
                                                         subscriptionId: int, mode: RefreshMode, syncTs: Int64,
                                                         newSoFar: int)
    requires |envs| == |items|
    requires forall i :: 0 <= i < |envs| ==> OnlyRemoteFaults(envs[i])
    ensures SyncItems(cfg, st, items, envs, subscriptionId, mode, syncTs, newSoFar).Passed?
    decreases |items|
  {
    if |items| > 0 {
      var markNew := MarkNew(newSoFar, items[0].pubDate, mode, syncTs);
      assert OnlyRemoteFaults(envs[0]);
      var a := TryInsertEpisode(cfg, st, items[0], subscriptionId, markNew, envs[0]);
      assert a.Attempted?;
      var next := if a.inserted && markNew then newSoFar + 1 else newSoFar;
      assert forall i :: 0 <= i < |envs[1..]| ==> envs[1..][i] == envs[i + 1];
      SyncItemsPassesWithoutEscapes(cfg, a.st, items[1..], envs[1..], subscriptionId, mode, syncTs, next);
    }
  }

  /**
   * An exception escapes the item loop only from the timestamp update or the
   * insert of some item, after every item before it went through; and it is
   * never a RemoteException, which the loop swallows.
   */
  lemma {:induction false} SyncItemsEscapeComesFromItem(cfg: Config, st: State, items: seq<Item>, envs: seq<ItemEnv>,
                                                        subscriptionId: int, mode: RefreshMode, syncTs: Int64,
                                                        newSoFar: int)
    requires |envs| == |items|
    ensures var r := SyncItems(cfg, st, items, envs, subscriptionId, mode, syncTs, newSoFar);
      r.PassThrew? ==>
        r.e.family != RemoteFamily && exists i :: EscapesAt(cfg, st, items, envs, subscriptionId, mode, syncTs, newSoFar, r.e, i)
    decreases |items|
  {
    if |items| > 0 {
      var markNew := MarkNew(newSoFar, items[0].pubDate, mode, syncTs);
      var a := TryInsertEpisode(cfg, st, items[0], subscriptionId, markNew, envs[0]);
      SyncItemsHead(cfg, st, items, envs, subscriptionId, mode, syncTs, newSoFar);
      AttemptThrowsItsFault(cfg, st, items[0], subscriptionId, markNew, envs[0]);
      if a.AttemptThrew? {
        assert items[..0] == [] && envs[..0] == [];
        assert EscapesAt(cfg, st, items, envs, subscriptionId, mode, syncTs, newSoFar, a.e, 0);
      } else {
        var next := if a.inserted && markNew then newSoFar + 1 else newSoFar;
        SyncItemsEscapeComesFromItem(cfg, a.st, items[1..], envs[1..], subscriptionId, mode, syncTs, next);
        var rest := SyncItems(cfg, a.st, items[1..], envs[1..], subscriptionId, mode, syncTs, next);
        if rest.PassThrew? {
          var k :| EscapesAt(cfg, a.st, items[1..], envs[1..], subscriptionId, mode, syncTs, next, rest.e, k);
          EscapesAtShift(cfg, st, items, envs, subscriptionId, mode, syncTs, newSoFar, rest.e, k);
        }
      }
    }
  }

  /** The `i`-th item's timestamp update or insert can throw `e`, and the items before it pass. */
  ghost predicate EscapesAt(cfg: Config, st: State, items: seq<Item>, envs: seq<ItemEnv>, subscriptionId: int,
                            mode: RefreshMode, syncTs: Int64, newSoFar: int, e: Exception, i: int)
    requires |envs| == |items|
  {
    && 0 <= i < |items|
    && (envs[i].touchFault == Some(e) || envs[i].insertFault == Some(e))
    && SyncItems(cfg, st, items[..i], envs[..i], subscriptionId, mode, syncTs, newSoFar).Passed?
  }

  /** An escape point of the tail, behind a head item that went through, is one of the whole sequence. */
  lemma EscapesAtShift(cfg: Config, st: State, items: seq<Item>, envs: seq<ItemEnv>, subscriptionId: int,
                       mode: RefreshMode, syncTs: Int64, newSoFar: int, e: Exception, k: int)
    requires |envs| == |items| && 0 < |items|
    requires var markNew := MarkNew(newSoFar, items[0].pubDate, mode, syncTs);
      var a := TryInsertEpisode(cfg, st, items[0], subscriptionId, markNew, envs[0]);
      && a.Attempted?
      && EscapesAt(cfg, a.st, items[1..], envs[1..], subscriptionId, mode, syncTs,
                   if a.inserted && markNew then newSoFar + 1 else newSoFar, e, k)
    ensures EscapesAt(cfg, st, items, envs, subscriptionId, mode, syncTs, newSoFar, e, k + 1)
  {
    assert envs[1..][k] == envs[k + 1];
    var pre, preEnvs := items[..k + 1], envs[..k + 1];
    assert pre[0] == items[0] && preEnvs[0] == envs[0];
    assert pre[1..] == items[1..][..k] && preEnvs[1..] == envs[1..][..k];
    SyncItemsHead(cfg, st, pre, preEnvs, subscriptionId, mode, syncTs, newSoFar);
  }

  /** A throwing attempt threw one of the item's own faults, and not a RemoteException. */
  lemma AttemptThrowsItsFault(cfg: Config, st: State, item: Item, subscriptionId: int, markNew: bool, env: ItemEnv)
    ensures var a := TryInsertEpisode(cfg, st, item, subscriptionId, markNew, env);
      a.AttemptThrew? ==>
        a.e.family != RemoteFamily && (env.touchFault == Some(a.e) || env.insertFault == Some(a.e))
  {
  }

  /** Every episode row that `after` adds or changes relative to `before` was last seen at `floor` or later. */
  ghost predicate StampedSince(before: Store, after: Store, floor: int)
  {
    forall k :: k in after.episodes && !(k in before.episodes && after.episodes[k] == before.episodes[k]) ==>
      LongOf(after.episodes[k], ETSTAMP) >= floor
  }

  lemma StampedSinceTransitive(s0: Store, s1: Store, s2: Store, floor: int)
    requires StampedSince(s0, s1, floor) && StampedSince(s1, s2, floor)
    requires s1.episodes.Keys <= s2.episodes.Keys
    ensures StampedSince(s0, s2, floor)
  {
  }

  /** Whatever one item writes carries the item's timestamp. */
  lemma {:induction false} TryInsertStamps(cfg: Config, st: State, item: Item, subscriptionId: int,
                                           markNew: bool, env: ItemEnv)
    ensures var r := TryInsertEpisode(cfg, st, item, subscriptionId, markNew, env);
      StampedSince(st.store, r.st.store, env.timestamp)
  {
    var r := TryInsertEpisode(cfg, st, item, subscriptionId, markNew, env);
    if ResolveAudio(item).Some? && env.touchFault.None? {
      var src := ResolveAudio(item).value;
      var id := GenerateId(src.link);
      var st1 := Call(st, Touch(id, env.timestamp));
      if id in st.store.episodes {
        assert st1.store.episodes == st.store.episodes[id := st.store.episodes[id] + map[ETSTAMP := Int(env.timestamp)]];
      } else {
        assert st1.store == st.store;
      }
    }
  }

  /** Whatever the item loop writes carries a timestamp no earlier than the earliest item timestamp. */
  lemma {:induction false} SyncItemsStamps(cfg: Config, st: State, items: seq<Item>, envs: seq<ItemEnv>,
                                           subscriptionId: int, mode: RefreshMode, syncTs: Int64, newSoFar: int,
                                           floor: int)
    requires |envs| == |items|
    requires forall i :: 0 <= i < |envs| ==> envs[i].timestamp >= floor
    ensures StampedSince(st.store, SyncItems(cfg, st, items, envs, subscriptionId, mode, syncTs, newSoFar).st.store, floor)
    decreases |items|
  {
    if |items| > 0 {
      var markNew := MarkNew(newSoFar, items[0].pubDate, mode, syncTs);
      var a := TryInsertEpisode(cfg, st, items[0], subscriptionId, markNew, envs[0]);
      TryInsertStamps(cfg, st, items[0], subscriptionId, markNew, envs[0]);
      assert envs[0].timestamp >= floor;
      if a.Attempted? {
        var next := if a.inserted && markNew then newSoFar + 1 else newSoFar;
        assert forall i :: 0 <= i < |envs[1..]| ==> envs[1..][i] == envs[i + 1];
        SyncItemsStamps(cfg, a.st, items[1..], envs[1..], subscriptionId, mode, syncTs, next, floor);
        var r := SyncItems(cfg, a.st, items[1..], envs[1..], subscriptionId, mode, syncTs, next);
        StampedSinceTransitive(st.store, a.st.store, r.st.store, floor);
      }
    }
  }

  // ---------------------------------------------------------------------------
  // The mark-new window

  /** The episode id of an item that has an audio source. */
  function AudioId(item: Item): int
    requires ResolveAudio(item).Some?
  {
    GenerateId(ResolveAudio(item).value.link)
  }

  /** Nothing stops an item's insert: no fault, no refusal and no malformed URL. */
  predicate Unhindered(env: ItemEnv)
  {
    env.touchFault.None? && env.insertFault.None? && !env.insertRefused && !env.probe.MalformedUrl?
  }

  /** An unhindered item whose audio id is not stored adds exactly its row, NEW or GONE by `markNew`. */
  lemma {:induction false} FreshItemIsInserted(cfg: Config, st: State, item: Item, subscriptionId: int,
                                               markNew: bool, env: ItemEnv)
    requires ResolveAudio(item).Some? && AudioId(item) !in st.store.episodes && Unhindered(env)
    ensures var r := TryInsertEpisode(cfg, st, item, subscriptionId, markNew, env);
      && r.Attempted? && r.inserted
      && r.st.store.podcasts == st.store.podcasts
      && r.st.store.episodes.Keys == st.store.episodes.Keys + {AudioId(item)}
      && (forall k :: k in st.store.episodes ==> r.st.store.episodes[k] == st.store.episodes[k])
      && r.st.store.episodes[AudioId(item)][ESTATE] == EState(if markNew then New else Gone)
  {
    var id := AudioId(item);
    var st1 := Call(st, Touch(id, env.timestamp));
    assert st1.store == st.store;
  }

  /** The loop handles the first item, then goes on with the rest unless that item threw. */
  lemma SyncItemsHead(cfg: Config, st: State, items: seq<Item>, envs: seq<ItemEnv>, subscriptionId: int,
                      mode: RefreshMode, syncTs: Int64, newSoFar: int)
    requires |envs| == |items| && 0 < |items|
    ensures var markNew := MarkNew(newSoFar, items[0].pubDate, mode, syncTs);
      var a := TryInsertEpisode(cfg, st, items[0], subscriptionId, markNew, envs[0]);
      var r := SyncItems(cfg, st, items, envs, subscriptionId, mode, syncTs, newSoFar);
      && (a.AttemptThrew? ==> r == PassThrew(a.st, a.e))
      && (a.Attempted? ==>
            r == SyncItems(cfg, a.st, items[1..], envs[1..], subscriptionId, mode, syncTs,
                           if a.inserted && markNew then newSoFar + 1 else newSoFar))
  {
  }

  /** A pass that stopped on a prefix stays stopped; one that finished it goes on with the rest. */
  function Resume(cfg: Config, p: Pass, items: seq<Item>, envs: seq<ItemEnv>, subscriptionId: int,
                  mode: RefreshMode, syncTs: Int64): Pass
    requires |envs| == |items|
  {
    if p.PassThrew? then p else SyncItems(cfg, p.st, items, envs, subscriptionId, mode, syncTs, p.newCount)
  }

  /** The item loop over `items` is the loop over its first `j` items, resumed over the rest. */
  lemma {:induction false} SyncItemsSplit(cfg: Config, st: State, items: seq<Item>, envs: seq<ItemEnv>,
                                          subscriptionId: int, mode: RefreshMode, syncTs: Int64, newSoFar: int,
                                          j: nat)
    requires |envs| == |items| && j <= |items|
    ensures SyncItems(cfg, st, items, envs, subscriptionId, mode, syncTs, newSoFar)
         == Resume(cfg, SyncItems(cfg, st, items[..j], envs[..j], subscriptionId, mode, syncTs, newSoFar),
                   items[j..], envs[j..], subscriptionId, mode, syncTs)
    decreases j
  {
    if j == 0 {
      assert items[..0] == [] && envs[..0] == [];
      assert items[0..] == items && envs[0..] == envs;
    } else {
      var markNew := MarkNew(newSoFar, items[0].pubDate, mode, syncTs);
      var a := TryInsertEpisode(cfg, st, items[0], subscriptionId, markNew, envs[0]);
      assert items[..j][0] == items[0] && envs[..j][0] == envs[0];
      assert items[..j][1..] == items[1..][..j - 1] && envs[..j][1..] == envs[1..][..j - 1];
      if a.Attempted? {
        var next := if a.inserted && markNew then newSoFar + 1 else newSoFar;
        SyncItemsSplit(cfg, a.st, items[1..], envs[1..], subscriptionId, mode, syncTs, next, j - 1);
        assert items[1..][j - 1..] == items[j..] && envs[1..][j - 1..] == envs[j..];
      }
    }
  }

  /** The first item, when it is inserted, leaves its row NEW or GONE by `MarkNew` for the rest of the pass. */
  lemma {:induction false} FirstInsertKeepsItsMark(cfg: Config, st: State, items: seq<Item>, envs: seq<ItemEnv>,
                                                   subscriptionId: int, mode: RefreshMode, syncTs: Int64,
                                                   newSoFar: int)
    requires |envs| == |items| && 0 < |items|
    requires ResolveAudio(items[0]).Some? && Unhindered(envs[0]) && AudioId(items[0]) !in st.store.episodes
    ensures var r := SyncItems(cfg, st, items, envs, subscriptionId, mode, syncTs, newSoFar);
      && AudioId(items[0]) in r.st.store.episodes && ESTATE in r.st.store.episodes[AudioId(items[0])]
      && r.st.store.episodes[AudioId(items[0])][ESTATE]
         == EState(if MarkNew(newSoFar, items[0].pubDate, mode, syncTs) then New else Gone)
  {
    var id := AudioId(items[0]);
    var markNew := MarkNew(newSoFar, items[0].pubDate, mode, syncTs);
    FreshItemIsInserted(cfg, st, items[0], subscriptionId, markNew, envs[0]);
    var a := TryInsertEpisode(cfg, st, items[0], subscriptionId, markNew, envs[0]);
    var next := if markNew then newSoFar + 1 else newSoFar;
    var rest := SyncItems(cfg, a.st, items[1..], envs[1..], subscriptionId, mode, syncTs, next);
    assert SyncItems(cfg, st, items, envs, subscriptionId, mode, syncTs, newSoFar) == rest;
    assert SameState(a.st.store.episodes[id], rest.st.store.episodes[id]);
  }

  /**
   * The mark-new window, for any item of any pass: when item `j` is reached
   * with `count` items counted before it, and it is inserted, the row it
   * leaves in the final store is NEW exactly when `MarkNew(count, ...)` holds,
   * whatever the later items do.
   */
  lemma {:induction false} SyncItemsMarksInsert(cfg: Config, st: State, items: seq<Item>, envs: seq<ItemEnv>,
                                                subscriptionId: int, mode: RefreshMode, syncTs: Int64,
                                                newSoFar: int, j: nat)
    requires |envs| == |items| && j < |items|
    requires ResolveAudio(items[j]).Some? && Unhindered(envs[j])
    ensures var p := SyncItems(cfg, st, items[..j], envs[..j], subscriptionId, mode, syncTs, newSoFar);
      var r := SyncItems(cfg, st, items, envs, subscriptionId, mode, syncTs, newSoFar);
      p.Passed? && AudioId(items[j]) !in p.st.store.episodes ==>
        && AudioId(items[j]) in r.st.store.episodes && ESTATE in r.st.store.episodes[AudioId(items[j])]
        && r.st.store.episodes[AudioId(items[j])][ESTATE]
           == EState(if MarkNew(p.newCount, items[j].pubDate, mode, syncTs) then New else Gone)
  {
    var p := SyncItems(cfg, st, items[..j], envs[..j], subscriptionId, mode, syncTs, newSoFar);
    if p.Passed? && AudioId(items[j]) !in p.st.store.episodes {
      SyncItemsSplit(cfg, st, items, envs, subscriptionId, mode, syncTs, newSoFar, j);
      assert items[j..][0] == items[j] && envs[j..][0] == envs[j];
      FirstInsertKeepsItsMark(cfg, p.st, items[j..], envs[j..], subscriptionId, mode, syncTs, p.newCount);
    }
  }

  /**
   * An item inserted outside the window is GONE: once the budget is spent,
   * or when its age, as the wrapping `long` subtraction gives it, is at least
   * the maximum.
   */
  lemma {:induction false} InsertOutsideWindowIsGone(cfg: Config, st: State, items: seq<Item>, envs: seq<ItemEnv>,
                                                     subscriptionId: int, mode: RefreshMode, syncTs: Int64,
                                                     newSoFar: int, j: nat)
    requires |envs| == |items| && j < |items|
    requires ResolveAudio(items[j]).Some? && Unhindered(envs[j])
    ensures var p := SyncItems(cfg, st, items[..j], envs[..j], subscriptionId, mode, syncTs, newSoFar);
      var r := SyncItems(cfg, st, items, envs, subscriptionId, mode, syncTs, newSoFar);
      p.Passed? && AudioId(items[j]) !in p.st.store.episodes
      && (p.newCount >= mode.count
          || (items[j].pubDate.Some? && SubInt64(syncTs, items[j].pubDate.value) >= mode.maxAge)) ==>
        && AudioId(items[j]) in r.st.store.episodes && ESTATE in r.st.store.episodes[AudioId(items[j])]
        && r.st.store.episodes[AudioId(items[j])][ESTATE] == EState(Gone)
  {
    var p := SyncItems(cfg, st, items[..j], envs[..j], subscriptionId, mode, syncTs, newSoFar);
    if p.Passed? && AudioId(items[j]) !in p.st.store.episodes {
      var pubDate := items[j].pubDate;
      if p.newCount >= mode.count || (pubDate.Some? && SubInt64(syncTs, pubDate.value) >= mode.maxAge) {
        assert !MarkNew(p.newCount, pubDate, mode, syncTs);
        SyncItemsMarksInsert(cfg, st, items, envs, subscriptionId, mode, syncTs, newSoFar, j);
      }
    }
  }

  /** How many flags are set. */
  function Marked(flags: seq<bool>): (n: nat)
    ensures n <= |flags|
  {
    if |flags| == 0 then 0 else (if flags[0] then 1 else 0) + Marked(flags[1..])
  }

  /**
   * The marks a pass in which every item is inserted gives, item by item.
   * Only young items are marked, and no more than the budget left.
   */
  function MarkPlan(items: seq<Item>, mode: RefreshMode, syncTs: Int64, newSoFar: int): (plan: seq<bool>)
    ensures |plan| == |items|
    ensures Marked(plan) <= if newSoFar < mode.count then mode.count - newSoFar else 0
    ensures forall i :: 0 <= i < |plan| && plan[i] ==>
      items[i].pubDate.None? || SubInt64(syncTs, items[i].pubDate.value) < mode.maxAge
    decreases |items|
  {
    if |items| == 0 then []
    else
      var markNew := MarkNew(newSoFar, items[0].pubDate, mode, syncTs);
      var rest := MarkPlan(items[1..], mode, syncTs, if markNew then newSoFar + 1 else newSoFar);
      assert ([markNew] + rest)[1..] == rest;
      assert forall i :: 0 < i < |items| ==> ([markNew] + rest)[i] == rest[i - 1] && items[1..][i - 1] == items[i];
      [markNew] + rest
  }

  /** The marking rule for the tail, shifted by the head's mark, is the rule for the whole sequence. */
  lemma MarkRuleShifts(plan: seq<bool>, rest: seq<bool>, items: seq<Item>, mode: RefreshMode, syncTs: Int64,
                       newSoFar: int, i: nat)
    requires |plan| == |items| && 0 < i < |plan| && rest == plan[1..]
    requires var next := if plan[0] then newSoFar + 1 else newSoFar;
      rest[i - 1] <==> MarkNew(next + Marked(rest[..i - 1]), items[1..][i - 1].pubDate, mode, syncTs)
    ensures plan[i] <==> MarkNew(newSoFar + Marked(plan[..i]), items[i].pubDate, mode, syncTs)
  {
    MarkedAfterHead(plan, i);
    assert rest[i - 1] == plan[i] && items[1..][i - 1] == items[i];
  }



  /** The marks before position `i` are the head's mark and the tail's marks before `i - 1`. */
  lemma MarkedAfterHead(flags: seq<bool>, i: nat)
    requires 0 < i <= |flags|
    ensures Marked(flags[..i]) == (if flags[0] then 1 else 0) + Marked(flags[1..][..i - 1])
  {
    assert flags[..i][1..] == flags[1..][..i - 1];
  }

  /** Item `i` is marked exactly when `MarkNew` holds with the marks before it counted. */
  lemma {:induction false} MarkPlanRule(items: seq<Item>, mode: RefreshMode, syncTs: Int64, newSoFar: int)
    ensures var plan := MarkPlan(items, mode, syncTs, newSoFar);
      forall i :: 0 <= i < |plan| ==> (plan[i] <==> MarkNew(newSoFar + Marked(plan[..i]), items[i].pubDate, mode, syncTs))
  {
    forall i | 0 <= i < |items|
      ensures var plan := MarkPlan(items, mode, syncTs, newSoFar);
        plan[i] <==> MarkNew(newSoFar + Marked(plan[..i]), items[i].pubDate, mode, syncTs)
    {
      MarkPlanRuleAt(items, mode, syncTs, newSoFar, i);
    }
  }

  lemma {:induction false} MarkPlanRuleAt(items: seq<Item>, mode: RefreshMode, syncTs: Int64, newSoFar: int, i: nat)
    requires i < |items|
    ensures var plan := MarkPlan(items, mode, syncTs, newSoFar);
      plan[i] <==> MarkNew(newSoFar + Marked(plan[..i]), items[i].pubDate, mode, syncTs)
    decreases i
  {
    var plan := MarkPlan(items, mode, syncTs, newSoFar);
    var next := if plan[0] then newSoFar + 1 else newSoFar;
    var rest := MarkPlan(items[1..], mode, syncTs, next);
    assert plan[1..] == rest;
    if i == 0 {
      assert plan[..0] == [];
    } else {
      MarkPlanRuleAt(items[1..], mode, syncTs, next, i - 1);
      assert plan[i] == rest[i - 1];
      MarkRuleShifts(plan, rest, items, mode, syncTs, newSoFar, i);
    }
  }

  /** Without publication dates the first items up to the budget are marked, and no others. */
  lemma {:induction false} MarkPlanWithoutDates(items: seq<Item>, mode: RefreshMode, syncTs: Int64, newSoFar: int)
    requires forall i :: 0 <= i < |items| ==> items[i].pubDate.None?
    ensures var plan := MarkPlan(items, mode, syncTs, newSoFar);
      && (forall i :: 0 <= i < |plan| ==> (plan[i] <==> newSoFar + i < mode.count))
      && Marked(plan) == if newSoFar >= mode.count then 0 else if mode.count - newSoFar <= |items| then mode.count - newSoFar else |items|
    decreases |items|
  {
    if |items| > 0 {
      var plan := MarkPlan(items, mode, syncTs, newSoFar);
      var next := if plan[0] then newSoFar + 1 else newSoFar;
      var rest := MarkPlan(items[1..], mode, syncTs, next);
      assert plan == [plan[0]] + rest && plan[1..] == rest;
      assert forall i :: 0 <= i < |items[1..]| ==> items[1..][i] == items[i + 1];
      MarkPlanWithoutDates(items[1..], mode, syncTs, next);
      forall i | 0 < i < |plan|
        ensures plan[i] <==> newSoFar + i < mode.count
      {
        assert plan[i] == rest[i - 1];
      }
    }
  }

  /**
   * A worked example: a budget of two and a maximum age of seven days,
   * with items one, two, ten, three and zero days old in feed order. The
   * first two are marked; the third is too old, and the budget is spent
   * before the last two.
   */
  lemma MarkPlanWorkedExample(items: seq<Item>, syncTs: Int64)
    requires WorkedExampleDates(items, syncTs)
    ensures MarkPlan(items, RefreshMode(2, 7 * DAY), syncTs, 0) == [true, true, false, false, false]
  {
    var mode := RefreshMode(2, 7 * DAY);
    assert items[1..][0] == items[1];
    var tail := MarkPlan(items[2..], mode, syncTs, 2);
    assert MarkPlan(items, mode, syncTs, 0) == [true] + MarkPlan(items[1..], mode, syncTs, 1);
    assert items[1..][1..] == items[2..];
    assert MarkPlan(items[1..], mode, syncTs, 1) == [true] + tail;
    UnmarkedIsAllFalse(tail);
    assert tail == [false, false, false];
  }

  lemma UnmarkedIsAllFalse(flags: seq<bool>)
    requires Marked(flags) == 0
    ensures forall i :: 0 <= i < |flags| ==> !flags[i]
  {
    if |flags| > 0 {
      UnmarkedIsAllFalse(flags[1..]);
      assert forall i :: 0 < i < |flags| ==> flags[i] == flags[1..][i - 1];
    }
  }

  /** One day in milliseconds. */
  const DAY: int := 24 * 60 * 60 * 1000

  /** Five items published one, two, ten, three and zero days before the sync. */
  predicate WorkedExampleDates(items: seq<Item>, syncTs: Int64)
  {
    && |items| == 5 && 0 <= syncTs
    && items[0].pubDate == Some(syncTs - DAY) && items[1].pubDate == Some(syncTs - 2 * DAY)
    && items[2].pubDate == Some(syncTs - 10 * DAY) && items[3].pubDate == Some(syncTs - 3 * DAY)
    && items[4].pubDate == Some(syncTs)
  }

  /** Every item has audio under an id of its own that is not stored yet, and nothing hinders its insert. */
  ghost predicate InsertsAll(st: Store, items: seq<Item>, envs: seq<ItemEnv>)
  {
    && |envs| == |items|
    && (forall i :: 0 <= i < |items| ==>
          ResolveAudio(items[i]).Some? && AudioId(items[i]) !in st.episodes && Unhindered(envs[i]))
    && (forall i, j :: 0 <= i < j < |items| && ResolveAudio(items[i]).Some? && ResolveAudio(items[j]).Some? ==>
          AudioId(items[i]) != AudioId(items[j]))
  }

  lemma InsertsAllRest(before: Store, after: Store, items: seq<Item>, envs: seq<ItemEnv>)
    requires InsertsAll(before, items, envs) && 0 < |items|
    requires after.episodes.Keys == before.episodes.Keys + {AudioId(items[0])}
    ensures InsertsAll(after, items[1..], envs[1..])
  {
    assert forall i :: 0 <= i < |items[1..]| ==> items[1..][i] == items[i + 1] && envs[1..][i] == envs[i + 1];
    forall i | 0 <= i < |items[1..]|
      ensures AudioId(items[1..][i]) !in after.episodes
    {
      assert AudioId(items[0]) != AudioId(items[i + 1]);
    }
  }

  /** Every item's audio id holds a row, NEW where the plan marks the item and GONE elsewhere. */
  ghost predicate RowsFollow(rows: map<int, Row>, items: seq<Item>, plan: seq<bool>)
  {
    && |plan| == |items|
    && forall i :: 0 <= i < |items| ==>
         && ResolveAudio(items[i]).Some? && AudioId(items[i]) in rows && ESTATE in rows[AudioId(items[i])]
         && rows[AudioId(items[i])][ESTATE] == EState(if plan[i] then New else Gone)
  }

  /** When every item is inserted, the pass marks them as `MarkPlan` says and counts its marks. */
  lemma {:induction false} SyncItemsFollowsMarkPlan(cfg: Config, st: State, items: seq<Item>, envs: seq<ItemEnv>,
                                                    subscriptionId: int, mode: RefreshMode, syncTs: Int64,
                                                    newSoFar: int)
    requires InsertsAll(st.store, items, envs)
    ensures var r := SyncItems(cfg, st, items, envs, subscriptionId, mode, syncTs, newSoFar);
      var plan := MarkPlan(items, mode, syncTs, newSoFar);
      && r.Passed? && r.newCount == newSoFar + Marked(plan)
      && RowsFollow(r.st.store.episodes, items, plan)
    decreases |items|
  {
    if |items| > 0 {
      var markNew := MarkNew(newSoFar, items[0].pubDate, mode, syncTs);
      var id := AudioId(items[0]);
      FreshItemIsInserted(cfg, st, items[0], subscriptionId, markNew, envs[0]);
      var a := TryInsertEpisode(cfg, st, items[0], subscriptionId, markNew, envs[0]);
      var next := if markNew then newSoFar + 1 else newSoFar;
      InsertsAllRest(st.store, a.st.store, items, envs);
      SyncItemsFollowsMarkPlan(cfg, a.st, items[1..], envs[1..], subscriptionId, mode, syncTs, next);
      SyncItemsHead(cfg, st, items, envs, subscriptionId, mode, syncTs, newSoFar);
      var r := SyncItems(cfg, a.st, items[1..], envs[1..], subscriptionId, mode, syncTs, next);
      var plan := MarkPlan(items, mode, syncTs, newSoFar);
      var rest := MarkPlan(items[1..], mode, syncTs, next);
      assert plan == [markNew] + rest && plan[1..] == rest;
      FirstInsertKeepsItsMark(cfg, st, items, envs, subscriptionId, mode, syncTs, newSoFar);
      assert SyncItems(cfg, st, items, envs, subscriptionId, mode, syncTs, newSoFar) == r;
      assert Marked(plan) == (if markNew then 1 else 0) + Marked(rest);
      forall i | 0 <= i < |items|
        ensures ResolveAudio(items[i]).Some? && AudioId(items[i]) in r.st.store.episodes
        ensures ESTATE in r.st.store.episodes[AudioId(items[i])]
        ensures r.st.store.episodes[AudioId(items[i])][ESTATE] == EState(if plan[i] then New else Gone)
      {
        if i > 0 {
          assert plan[i] == rest[i - 1] && items[1..][i - 1] == items[i];
        }
      }
    }
  }

  /**
   * Distinct new audio ids, no faults, no refusals, no malformed URLs and no
   * publication dates: the pass counts, and adds as NEW, as many items as the
   * budget allows.
   */
  lemma SyncItemsFillsBudget(cfg: Config, st: State, items: seq<Item>, envs: seq<ItemEnv>,
                             subscriptionId: int, mode: RefreshMode, syncTs: Int64, newSoFar: int)
    requires InsertsAll(st.store, items, envs)
    requires forall i :: 0 <= i < |items| ==> items[i].pubDate.None?
    ensures var r := SyncItems(cfg, st, items, envs, subscriptionId, mode, syncTs, newSoFar);
      var window := if newSoFar >= mode.count then 0
                    else if mode.count - newSoFar <= |items| then mode.count - newSoFar else |items|;
      && r.Passed? && r.newCount == newSoFar + window
      && |NewEpisodeIds(st.store, r.st.store)| == window
  {
    SyncItemsFollowsMarkPlan(cfg, st, items, envs, subscriptionId, mode, syncTs, newSoFar);
    MarkPlanWithoutDates(items, mode, syncTs, newSoFar);
    assert NoRefusal(envs);
  }

  /** The worked example carried out by the item loop: two NEW rows, three GONE ones, a count of two. */
  lemma SyncItemsWorkedExample(cfg: Config, st: State, items: seq<Item>, envs: seq<ItemEnv>,
                               subscriptionId: int, syncTs: Int64)
    requires InsertsAll(st.store, items, envs)
    requires WorkedExampleDates(items, syncTs)
    ensures var r := SyncItems(cfg, st, items, envs, subscriptionId, RefreshMode(2, 7 * DAY), syncTs, 0);
      r.Passed? && r.newCount == 2
  {
    SyncItemsFollowsMarkPlan(cfg, st, items, envs, subscriptionId, RefreshMode(2, 7 * DAY), syncTs, 0);
    MarkPlanWorkedExample(items, syncTs);
    assert Marked([true, true, false, false, false]) == 2;
  }

  /** The rows the worked example leaves: the first two items NEW, the other three GONE. */
  lemma SyncItemsWorkedExampleRows(cfg: Config, st: State, items: seq<Item>, envs: seq<ItemEnv>,
                                   subscriptionId: int, syncTs: Int64)
    requires InsertsAll(st.store, items, envs)
    requires WorkedExampleDates(items, syncTs)
    ensures var r := SyncItems(cfg, st, items, envs, subscriptionId, RefreshMode(2, 7 * DAY), syncTs, 0);
      r.Passed? && RowsFollow(r.st.store.episodes, items, [true, true, false, false, false])
  {
    SyncItemsFollowsMarkPlan(cfg, st, items, envs, subscriptionId, RefreshMode(2, 7 * DAY), syncTs, 0);
    MarkPlanWorkedExample(items, syncTs);
  }

  // ---------------------------------------------------------------------------
  // The run

  /** What the sync reports to its `SyncState`. */
  datatype Outcome =
    | Success(title: Option<string>, newEpisodes: int)
    | IOError(link: string)
    | DBError(link: string)
    | ParseError(link: string)

  /** Opening the connection and parsing the feed: a feed, or the exception either threw. */
  datatype FetchResult = Parsed(feed: Feed) | FetchFailed(e: Exception)

  /** What the world answers during one run. */
  datatype SyncEnv = SyncEnv(
    fetch: FetchResult,
    feedUpdateFault: Option<Exception>,   // thrown by the podcast update in updateFeed
    syncTs: Int64,                        // new Date() after updateFeed
    items: seq<ItemEnv>,                  // one per parsed item
    commitFault: Option<Exception>,       // thrown by the final podcast update
    errorWriteFails: bool)                // the error write threw RemoteException

  /** The environment answers for every parsed item, and the parser kept to its cap. */
  predicate EnvFits(env: SyncEnv)
  {
    env.fetch.Parsed? ==>
      |env.fetch.feed.items| <= MAX_EPISODES_TO_PARSE && |env.items| == |env.fetch.feed.items|
  }

  /** The outcome signalled for an exception caught by `run`. */
  function Classify(e: Exception, link: string): (r: Outcome)
    ensures !r.Success? && r.link == link
    ensures r.DBError? <==> e.family == RemoteFamily
    ensures r.ParseError? <==> e.family == DataFormatFamily || e.family == XmlPullParserFamily
    ensures r.IOError? <==> e.family == IOFamily || e.family == OtherFamily
  {
    match e.family
    case IOFamily => IOError(link)
    case RemoteFamily => DBError(link)
    case DataFormatFamily => ParseError(link)
    case XmlPullParserFamily => ParseError(link)
    case OtherFamily => IOError(link)
  }

  /** The message stored for a failed refresh: the localized message (or "null") and the class's simple name. */
  function ErrorMessage(e: Exception): string
  {
    (if e.message.Some? then e.message.value else "null") + " (" + e.simpleName + ")"
  }

  /** The update `storeFeedError` issues. */
  function ErrorWrite(id: int, e: Exception): Write
  {
    Update(Podcasts, id, map[PERROR := Text(ErrorMessage(e)), PSTATE := PState(LastRefreshFailed)])
  }

  /** `storeFeedError`: record the failure on the podcast row; a RemoteException here is swallowed. */
  function StoreFeedError(st: State, id: int, e: Exception, writeFails: bool): (r: State)
    ensures r.store.episodes == st.store.episodes
    ensures writeFails ==> r == st
    ensures !writeFails ==> r.log == st.log + [ErrorWrite(id, e)]
    ensures !writeFails && id in st.store.podcasts ==>
      r.store.podcasts == st.store.podcasts[id := st.store.podcasts[id] + ErrorWrite(id, e).values]
    ensures id !in st.store.podcasts ==> r.store == st.store
  {
    if writeFails then st else Call(st, ErrorWrite(id, e))
  }

  datatype RunResult = RunResult(st: State, outcome: Outcome)

  function Fail(st: State, id: int, link: string, e: Exception, env: SyncEnv): RunResult
  {
    RunResult(StoreFeedError(st, id, e, env.errorWriteFails), Classify(e, link))
  }

  /** Either the next stage's state, or the exception that aborts the run. */
  datatype Step = Continue(st: State) | Abort(st: State, e: Exception)

  /** A `RemoteException` the worker throws itself. */
  function RemoteFailure(message: string): Exception
  {
    Exception(RemoteFamily, "RemoteException", Some(message))
  }

  /** The podcast columns `updateFeed` writes: the feed's data, and the timestamp zeroed. */
  function FeedValues(cfg: Config, link: string, feed: Feed): (values: Row)
    ensures PFURL in values && PURL in values && PNAME in values && PTSTAMP in values
    ensures (PDESCR in values <==> feed.description.Some?) && (PSDESCR in values <==> feed.description.Some?)
    ensures PSTATE !in values && PERROR !in values && PRMODE !in values
    ensures values[PTSTAMP] == Int(0)
    ensures values[PFURL] == Text(link)
    ensures values[PURL] == TextOrNull(feed.link)
    ensures values[PNAME] == TextOrNull(feed.title)
    ensures feed.description.Some? ==>
      var simplified := cfg.simplifyHtml(feed.description.value);
      && values[PDESCR] == Text(simplified)
      && values[PSDESCR] == Text(ShortDescription(cfg.plainText(simplified), cfg.shortDescrLength))
  {
    var base := map[PFURL := Text(link), PURL := TextOrNull(feed.link), PNAME := TextOrNull(feed.title), PTSTAMP := Int(0)];
    if feed.description.Some? then
      var simplified := cfg.simplifyHtml(feed.description.value);
      base[PDESCR := Text(simplified)][PSDESCR := Text(ShortDescription(cfg.plainText(simplified), cfg.shortDescrLength))]
    else base
  }

  /** The feed update writes the feed's columns and the timestamp, and no other column. */
  lemma FeedValuesColumns(cfg: Config, link: string, feed: Feed)
    ensures FeedValues(cfg, link, feed).Keys
         == {PFURL, PURL, PNAME, PTSTAMP} + (if feed.description.Some? then {PDESCR, PSDESCR} else {})
  {
  }

  /** `updateFeed`: the podcast update must hit exactly one row. */
  function UpdateFeed(cfg: Config, st: State, id: int, link: string, feed: Feed, fault: Option<Exception>): (r: Step)
    ensures fault.Some? ==> r == Abort(st, fault.value)
    ensures r.Continue? <==> fault.None? && id in st.store.podcasts
    ensures fault.None? ==> r.st == Call(st, Update(Podcasts, id, FeedValues(cfg, link, feed)))
    ensures fault.None? && id !in st.store.podcasts ==>
      r.e == RemoteFailure("Failed to update database with new podcast data") && r.st.store == st.store
  {
    if fault.Some? then Abort(st, fault.value)
    else
      var w := Update(Podcasts, id, FeedValues(cfg, link, feed));
      if Affected(st.store, w) != 1 then Abort(Call(st, w), RemoteFailure("Failed to update database with new podcast data"))
      else Continue(Call(st, w))
  }

  /** The podcast columns of the final update: seen once, refresh mode back to ALL, the sync timestamp. */
  function CommitValues(cfg: Config, syncTs: Int64): Row
  {
    map[PSTATE := PState(SeenOnce), PRMODE := Int(cfg.allModeOrdinal), PTSTAMP := Int(syncTs)]
  }

  /** The final update of `run`, which must hit exactly one row. */
  function Commit(cfg: Config, st: State, id: int, syncTs: Int64, fault: Option<Exception>): (r: Step)
    ensures fault.Some? ==> r == Abort(st, fault.value)
    ensures r.Continue? <==> fault.None? && id in st.store.podcasts
    ensures fault.None? ==> r.st == Call(st, Update(Podcasts, id, CommitValues(cfg, syncTs)))
    ensures fault.None? && id !in st.store.podcasts ==>
      r.e == RemoteFailure("Failed to update feed timestamp") && r.st.store == st.store
  {
    if fault.Some? then Abort(st, fault.value)
    else
      var w := Update(Podcasts, id, CommitValues(cfg, syncTs));
      if Affected(st.store, w) != 1 then Abort(Call(st, w), RemoteFailure("Failed to update feed timestamp"))
      else Continue(Call(st, w))
  }

  /**
   * `run()` for subscription `id` with feed URL `link`: fetch and parse,
   * zero the podcast timestamp, process the items in feed order, then commit
   * the sync timestamp; any exception on the way is recorded on the podcast
   * row and signalled by its class.
   */
  function Run(cfg: Config, id: int, link: string, mode: RefreshMode, store: Store, env: SyncEnv): (r: RunResult)
    requires EnvFits(env)
    ensures env.fetch.FetchFailed? ==> r.outcome == Classify(env.fetch.e, link) && r.st.store.episodes == store.episodes
    ensures r.outcome.Success? ==>
      env.fetch.Parsed? && r.outcome.title == env.fetch.feed.title && 0 <= r.outcome.newEpisodes <= |env.fetch.feed.items|
    ensures !r.outcome.Success? ==> r.outcome.link == link
    ensures r.st.store.podcasts.Keys == store.podcasts.Keys
  {
    var st0 := State(store, []);
    match env.fetch
    case FetchFailed(e) => Fail(st0, id, link, e, env)
    case Parsed(feed) =>
      match UpdateFeed(cfg, st0, id, link, feed, env.feedUpdateFault)
      case Abort(st1, e) => Fail(st1, id, link, e, env)
      case Continue(st1) =>
        match SyncItems(cfg, st1, feed.items, env.items, id, mode, env.syncTs, 0)
        case PassThrew(st2, e) => Fail(st2, id, link, e, env)
        case Passed(st2, n) =>
          match Commit(cfg, st2, id, env.syncTs, env.commitFault)
          case Abort(st3, e) => Fail(st3, id, link, e, env)
          case Continue(st3) => RunResult(st3, Success(feed.title, n))
  }
}
